=== FILE: README.md ===
# ELCLI command-line dispatcher, modelled in Dafny

ELCLI is a small Swift toolkit for writing command-line programs. A program
builds a `CLI` dispatcher, registers `Command` objects that declare options
(flags with optional values, plus one kind of flagless option that collects
positional tokens), and calls `run()`.

`run()` does three things in order:

- takes the first argument as the command name;
- walks the remaining tokens, firing the closures of matching options;
- calls the command's `execute`.

Two built-in commands are always registered: `--version` and `--help`. The
first read of a command's option list stores two global options, `--help`
and `-v`/`--verbose`. A command that declares options of its own loses
them, and the first token parsed for a command sees none of them (see
below). Help texts are rendered with fixed-width columns.

This project models that core as pure functions over immutable values:

| module | file | models |
|---|---|---|
| `Wrappers` | wrappers.dfy | the `Option` type used for Swift optionals |
| `SeqFacts` | seq_facts.dfy | generic sequence facts used by the proofs |
| `Options` | options.dfy | the `Option` record (`CliOption` here) and its initialisers |
| `Output` | output.dfy | `write`/`writeln`, `exit`/`exitSuccess`, padding, `printOption`, `printCommand` |
| `Commands` | command.dfy | the `Command` extension: the lazy option store, `addOption*`, the global options, `showHelp` |
| `BuiltIns` | builtins.dfy | `HelpCommand` and `VersionCommand` |
| `Cli` | cli.dfy | `CLI`: `init`, `addCommands`, `identifyCommand`, `processArguments`, `run`, `CLIResult` |
| `CommandProperties` | command_properties.dfy | properties of the option store and of help rendering |
| `CliProperties` | cli_properties.dfy | properties of parsing and of `run` |
| `Scenarios` | scenarios.dfy | whole runs on the command lines of the repository's own tests |

How the source's effects are represented:

- Output is a log of `Chunk(stream, text)` values, one per `write` call.
- Ending the process is a `Status`:
  - `Error(message)` for `exit`, with status 1;
  - `SuccessExit` for `exitSuccess`;
  - `Trap(reason)` for a Swift runtime trap.
- Closures of the embedding program are named by a tag. Each firing is
  recorded as an `Event(tag, flag, value)`.
- The two closures the toolkit installs itself are modelled by their
  effect:
  - `--help` renders the command's help and exits successfully;
  - `-v` sets `verbose`.

The model follows the code as written, including behaviour that looks
unintended. Each item below is proved:

- **Flag matching (first option, last flag).** A flag token fires the FIRST
  matching option, but with the flag recorded by the LAST matching option.
  The filter closure overwrites `optionFlag` for every match. This is
  proved for a first match that takes no value, and for every first match
  when no declared flag contains '='
  (`CliProperties.FirstDeclaredFiresWithLastDeclaredFlag`). A declared flag
  containing '=' can make the `=` form pass the token's text before its
  first '=' instead.
- **`flag=value` against `flag value`.** The `=` form is recognised only
  when the token starts with the RECORDED flag followed by '='. When a later
  declared option has a flag that is a proper prefix of the written one
  (`--m` declared after `--message`), "--message=x" is not recognised: the
  option gets `--m` and the NEXT token as its value, which is then skipped.
  "--message x" gets `--m` and "x" (`CliProperties.EqualsFormDivergesOnShorterLaterFlag`).
- **Unknown flag without strict checking.** When no option matches and
  `failOnUnrecognizedOptions` is false, the source evaluates
  `matchingOptions[0]` on an empty array, which traps. The token is not
  ignored (`CliProperties.UnmatchedFlag`).
- **The lazy option getter.** On a command whose list does not exist yet,
  the first read returns the empty list it just created, while the store
  is left holding `--help` and `-v, --verbose`. So the first token parsed
  for such a command sees no options at all. A first help rendering lists
  none, and a second one lists both (`CliProperties.FirstTokenSeesNoOptions`,
  `CommandProperties.FreshHelpOmitsGlobals`).
- **Lost global options.** An `addOption` whose internal read is the first
  one creates the store, then overwrites it with only the new option. A
  command that declares options in `configureOptions` therefore loses the
  two global options (`CommandProperties.FreshCommandLosesGlobals`).
- **The version line.** `init` assigns the version to `appDescription`, so
  the version line shows the version twice
  (`Scenarios.VersionLineRepeatsVersion`).
- **The stop marker.** `"--"` is checked before `skipNext`. A `"--"` consumed
  as a flag's value is passed to the closure and still ends parsing
  (`CliProperties.ConsumedStopMarkerStillHalts`).
- **Duplicate command names.** `addCommands` accepts a name that is
  already registered. Looking it up raises an assertion only in debug
  builds. The model follows release builds, where the first command
  registered under the name is used (`Cli.AddCommands`, `Cli.FirstNamed`).
- **The built-in commands return.** `--help` and `--version` write their
  text and return result code 0 from `execute`; they do not end the
  process (`BuiltIns.HelpExecute`, `BuiltIns.VersionExecute`).

## Model

| member | source | states |
|---|---|---|
| Options.FlagOption | THGCLI/Options.swift:26-31 | the two-argument initialiser keeps flags, usage and closure and leaves no value placeholders, so the option never receives positional tokens |
| Options.PositionalOption | THGCLI/Options.swift:33-38 | the flagless initialiser has no flags and no usage, is always renderable, and receives positional tokens exactly when it declares placeholders |
| Options.Positionals | ELCLI/Command.swift:67-72 | the flagless filter returns only declared options that have no flags and do have placeholders |
| Options.PositionalsOfConcat | THGCLI/CLI.swift:155-160 | the flagless filter keeps declaration order: the filter of a concatenation is the concatenation of the filters |
| Options.FirstPositional | THGCLI/CLI.swift:155-164 | the option that receives a positional token is the first declared option without flags that has placeholders |
| Options.PositionalsComplete | THGCLI/CLI.swift:155-160 | the flagless filter misses no option without flags that has placeholders |
| Options.FlagBearing | ELCLI/Command.swift:86-91 | the flag filter of `showHelp` returns only declared options that have flags |
| Options.FlagBearingComplete | ELCLI/Command.swift:86-91 | the flag filter misses no option with flags |
| Options.FlagBearingOfConcat | ELCLI/Command.swift:86-91 | the flag filter keeps declaration order |
| Output.WriteLayout | THGCLI/Output.swift:35-48 | a write goes to the stream it names and only standard error gets the "error: " prefix, which restates `write` itself; the derived fact is that `writeln` puts its newline after the prefixed text |
| Output.Exit | THGCLI/Output.swift:58-69 | `exit` writes the message, prefixed and newline-terminated, to standard error before anything the closure writes, and ends the run with status 1 |
| Output.ExitSuccess | THGCLI/Output.swift:50-56 | `exitSuccess` ends the run with status 0 |
| Output.PadFront | THGCLI/Output.swift:123-132 | padding in front gives length the larger of the width and the length of `s`, ends with `s` unchanged, and everything before it is blank |
| Output.PadBack | THGCLI/Output.swift:134-143 | padding behind gives length the larger of the width and the length of `s`, starts with `s` unchanged, and everything after it is blank |
| Output.JoinFlags | THGCLI/Output.swift:76-86 | no flags join to nothing and one flag to itself; the join starts with the first flag, and its length is the flags' total length plus two characters per separator |
| Output.JoinFlagsCons | THGCLI/Output.swift:78-85 | joining from the front: the first flag, then ", ", then the remaining flags joined the same way, so every flag appears in order with ", " between neighbours |
| Output.FlagColumnLayout | THGCLI/Output.swift:76-92 | the flag column is five blanks, the joined flags, then a blank and the first placeholder when the option declares one |
| Output.OptionLineLayout | THGCLI/Output.swift:94-103 | an option line keeps the whole flag column. The usage text starts at column 27 on the same line when the column fits in 26 characters. Otherwise it goes on a second line after a newline and 27 blanks |
| Output.PrintOption | THGCLI/Output.swift:71-107 | `printOption` writes nothing for an option without flags or with more than one placeholder, and otherwise exactly one standard-output line holding the option line |
| Output.CommandLineLayout | THGCLI/Output.swift:114-117 | a summary line is three blanks, the name padded to 14 characters (never cut), a blank, and the description |
| Output.PrintCommand | THGCLI/Output.swift:109-120 | `printCommand` writes nothing exactly when the name starts with "-", and otherwise one standard-output summary line |
| Commands.NewCommand | ELCLI/Commands/HelpCommand.swift:14-19 | a new command has `verbose` and `quiet` off and no option store yet, and keeps the name, description and strictness it was given |
| Commands.ReadOptions | ELCLI/Command.swift:34-44 | the getter returns the stored list unchanged when it exists. On the first read it returns the empty list and leaves the two global options stored. Validity of the options is preserved |
| Commands.AddGlobalCommandOptions | ELCLI/Command.swift:113-122 | appends `--help` and then `-v, --verbose` after the stored options |
| Commands.AppendOption | ELCLI/Command.swift:103-111 | the private `addOption` stores what the read returned plus the new option, overwriting whatever the read itself stored |
| Commands.AddOption | ELCLI/Command.swift:47-49 | appends a flag option with the given flags, usage and closure, and no placeholders; nothing else about the command changes |
| Commands.AddOptionValue | ELCLI/Command.swift:51-53 | appends a flag option with exactly the one given placeholder; nothing else about the command changes |
| Commands.AddFlaglessOptionValues | ELCLI/Command.swift:55-57 | appends an option with no flags, no usage and the given placeholders; nothing else about the command changes |
| Commands.UsagePlaceholders | ELCLI/Command.swift:66-78 | the usage line lists the placeholders of the first flagless option with placeholders, or none when there is no such option |
| Commands.PlaceholderChunksContent | ELCLI/Command.swift:74-78 | placeholder k is written to standard output as itself followed by a blank, in declaration order |
| Commands.PrintableOptions | ELCLI/Command.swift:93-97 | the options that get a help line are declared options that have flags and at most one placeholder |
| Commands.PrintableComplete | ELCLI/Command.swift:93-97 | no option with flags and at most one placeholder is left out of the help lines |
| Commands.PrintOptions | ELCLI/Command.swift:93-97 | printing the flag-bearing options writes exactly one line per printable option |
| Commands.PrintOptionsLine | ELCLI/Command.swift:93-97 | line i of the printed options is the option line of the i-th printable option |
| Commands.PrintableAmongFlagBearing | ELCLI/Command.swift:86-97 | filtering for flags before printing changes nothing: the printable options of the flag-bearing ones are the printable options of all |
| Commands.UsageLine | ELCLI/Command.swift:60-80 | the usage line is four writes plus one per placeholder |
| Commands.UsageLineLayout | ELCLI/Command.swift:60-80 | the usage line is "usage: ", the process name, the command name with "[options]", each placeholder followed by a blank, and then a blank line |
| Commands.HelpText | ELCLI/Command.swift:59-101 | the help text has the usage line, one line per printable option and a closing line |
| Commands.HelpTextFrame | ELCLI/Command.swift:59-101 | the help text begins with the usage line and ends with an empty line |
| Commands.HelpTextListsPrintableOptions | ELCLI/Command.swift:82-97 | between the two, line i is the option line of the i-th printable option, in declaration order |
| Commands.ShowHelp | ELCLI/Command.swift:59-64 | `showHelp` renders the options its read returns, which is the existing store or, on a fresh command, nothing. It leaves the store as that read does |
| CommandProperties.GlobalsInjectedOnce | ELCLI/Command.swift:34-44 | the global options are added by the first read only; a second read returns them and changes nothing |
| CommandProperties.ConfigureOptionsStore | ELCLI/Command.swift:103-111 | adding options one by one leaves the earlier store followed by exactly those options, in order. On a fresh command, any addition drops the global options |
| CommandProperties.FreshCommandLosesGlobals | ELCLI/Command.swift:34-44 | a fresh command that declares options stores only those options; `--help` is absent unless declared |
| CommandProperties.ShowHelpSettles | ELCLI/Command.swift:59-64 | a second help rendering changes nothing further and equals the first when the store existed. On a fresh command the first rendering lists no options and the second lists the global ones |
| CommandProperties.FreshHelpOmitsGlobals | ELCLI/Command.swift:64 | on a fresh command the first help text has 5 lines (no option line) and the second has 7 (`--help` and `-v, --verbose`) |
| BuiltIns.HelpCommand | ELCLI/Commands/HelpCommand.swift:14-23 | the help command is named `--help`, has an empty description, is not strict, and declares nothing |
| BuiltIns.VersionCommand | ELCLI/Commands/VersionCommand.swift:14-23 | the version command is named `--version`, has an empty description, is not strict, and declares nothing |
| BuiltIns.Listed | THGCLI/Output.swift:110-112 | the summary lists only registered commands whose name does not start with "-" |
| BuiltIns.ListedComplete | THGCLI/Output.swift:110-112 | no registered command whose name does not start with "-" is left out of the summary |
| BuiltIns.ListedOfConcat | ELCLI/Commands/HelpCommand.swift:32-35 | the listed commands keep registration order |
| BuiltIns.PrintCommands | ELCLI/Commands/HelpCommand.swift:32-35 | the command list has one line per listed command |
| BuiltIns.PrintCommandsOfConcat | ELCLI/Commands/HelpCommand.swift:32-35 | the summary lines of a concatenation of command lists are the lines of the first list followed by those of the second |
| BuiltIns.PrintCommandsLine | ELCLI/Commands/HelpCommand.swift:32-35 | line i of the command list is the summary line of the i-th listed command, in registration order |
| BuiltIns.HelpExecute | ELCLI/Commands/HelpCommand.swift:25-40 | the help command returns 0 and writes the header, one line per listed command and a closing line |
| BuiltIns.HelpExecuteLayout | ELCLI/Commands/HelpCommand.swift:25-40 | the summary opens with the four header writes, lists the commands in order, and ends with an empty line |
| BuiltIns.VersionExecute | ELCLI/Commands/VersionCommand.swift:25-29 | the version command returns 0 and writes the one line "name version v, description" to standard output |
| Cli.NewCli | THGCLI/CLI.swift:20-28 | `init` keeps the name and version and stores the version as the description. It splits off the executable and registers `--version` and then `--help` |
| Cli.AddCommands | THGCLI/CLI.swift:30-35 | registration appends the commands after those already registered and changes nothing else |
| Cli.IsFlag | THGCLI/CLI.swift:170-172 | a token is a flag exactly when its first character is "-" |
| Cli.IsStopMarker | THGCLI/CLI.swift:174-176 | the stop marker is exactly the two-character token "--", which is also a flag |
| Cli.FirstPrefixFlag | THGCLI/CLI.swift:108-116 | the flag found is a declared flag that prefixes the token, and none is found exactly when no declared flag prefixes it |
| Cli.FirstPrefixFlagIsFirst | THGCLI/CLI.swift:109-113 | the flag found is the first declared flag that prefixes the token |
| Cli.Matching | THGCLI/CLI.swift:107-118 | the matching options are declared options with a flag that prefixes the token |
| Cli.MatchingComplete | THGCLI/CLI.swift:107-118 | no option with a flag prefixing the token is left out of the matches |
| Cli.MatchingOfConcat | THGCLI/CLI.swift:107-118 | the matches keep declaration order |
| Cli.NoneMatching | THGCLI/CLI.swift:107-118 | when no declared option matches, the matches are empty |
| Cli.FirstMatch | THGCLI/CLI.swift:107-128 | the first of the matches, the option that fires, is the first declared option that matches |
| Cli.LastMatch | THGCLI/CLI.swift:107-118 | the last of the matches, whose flag `optionFlag` keeps, is the last declared option that matches |
| Cli.MatchedFlag | THGCLI/CLI.swift:103-118 | `optionFlag` is set exactly when some option matches; it then prefixes the token and is the flag found in the last matching option |
| Cli.SplitOnce | THGCLI/CLI.swift:137 | splitting at '=' with at most one split and no empty pieces yields at most two pieces, none empty |
| Cli.ValueFor | THGCLI/CLI.swift:130-149 | an option without placeholders gets no value. With placeholders and no "flag=" form it gets the next token, which is then skipped. The "flag=" form never skips |
| Cli.Invoke | THGCLI/CLI.swift:151 | running a closure keeps the command well formed and never removes its option store |
| Cli.RejectOption | THGCLI/CLI.swift:121-125 | an unknown option ends the run and keeps the command well formed |
| Cli.FireOption | THGCLI/CLI.swift:128-151 | firing the matched option skips the next token only if one exists and the run goes on |
| Cli.FlagStep | THGCLI/CLI.swift:106-152 | a flag token skips the next token only if one exists and the run goes on |
| Cli.PositionalStep | THGCLI/CLI.swift:153-165 | a non-flag token never causes a skip |
| Cli.Step | THGCLI/CLI.swift:102-166 | each processed token reads the option list through the getter, so the store exists afterwards |
| Cli.ProcessTokens | THGCLI/CLI.swift:86-168 | parsing keeps the command well formed |
| Cli.ProcessTokensFrame | THGCLI/CLI.swift:86-168 | parsing never changes the command's identity, and only appends to the closure firings and to the output |
| Cli.Named | THGCLI/CLI.swift:67-69 | the commands found are registered commands with exactly the given name |
| Cli.NamedComplete | THGCLI/CLI.swift:67-69 | no registered command with the name is left out |
| Cli.NamedOfConcat | THGCLI/CLI.swift:67-69 | the commands found keep registration order |
| Cli.FirstNamed | THGCLI/CLI.swift:67-80 | the command chosen is the first one registered under the name |
| Cli.IdentifyCommand | THGCLI/CLI.swift:61-84 | no arguments gives no command. An unknown name ends the run with the "unknown command" error exactly when no registered command has it. Otherwise the first registered command with the name is chosen |
| Cli.Execute | THGCLI/CLI.swift:41 | `execute` returns the result code the model fixes for the command; the built-ins' output is stated by `BuiltIns.HelpExecuteLayout` and `BuiltIns.VersionExecute` |
| Cli.UnknownOptionMessage | THGCLI/CLI.swift:123 | the "unknown option" message names the token and then the command, each between a backquote and a quote |
| Cli.UnknownCommandMessage | THGCLI/CLI.swift:74 | the "unknown command" message names the command between a backquote and a quote |
| Cli.EmptyCliResult | THGCLI/CLI.swift:181-187 | a new `CLIResult` has result code 0, no description and no command |
| Cli.Run | THGCLI/CLI.swift:37-46 | `run` gives no result exactly when there are no arguments. An executed result names a command registered under the first argument and carries that command's result code |
| CliProperties.SplitAtFirstEquals | THGCLI/CLI.swift:137-141 | "p=v" with no '=' in p splits into p and, when v is not empty, v, everything after the first '=' |
| CliProperties.EqualsFormValue | THGCLI/CLI.swift:134-141 | for "flag=v" with a non-empty flag that contains no '=', the closure gets the flag and v (nil when v is empty), and nothing is skipped |
| CliProperties.MatchingIgnoresValue | THGCLI/CLI.swift:107-118 | when neither the token nor any declared flag contains '=', appending "=value" to the token does not change which options match it |
| CliProperties.FirstOptionFiresWithLastFlag | THGCLI/CLI.swift:107-128 | with `-a` declared before `-ab`, the token `-abc` fires the `-a` option with the flag `-ab` |
| CliProperties.FirstDeclaredFiresWithLastDeclaredFlag | THGCLI/CLI.swift:107-151 | when the first declared matching option takes no value, or no declared flag contains '=', a flag token fires that option's closure once with the first prefixing flag of the last declared matching option. The value is none without placeholders, the text after that flag and '=' in the `=` form (none when empty), and otherwise the next token, which is skipped |
| CliProperties.EqualsFormDivergesOnShorterLaterFlag | THGCLI/CLI.swift:107-148 | with `--message` declared before `--m`, "--message=x" passes `--m` with the next token as value and skips it, while "--message" followed by "x" passes `--m` with "x" |
| CliProperties.MatchedFlagFires | THGCLI/CLI.swift:126-151 | a matched flag fires the first match once with the recorded flag. Without placeholders it has no value and no skip. With placeholders and outside the `=` form (the token does not start with the recorded flag and '='), it takes the next token, if any, as value and skips it |
| CliProperties.HelpFlagShowsHelpAndExits | ELCLI/Command.swift:114-117 | a flag whose first match is the `--help` option writes the command's help for the list just read and ends the run with success. The command is left unchanged and no closure of the program fires |
| CliProperties.VerboseFlagSetsVerbose | ELCLI/Command.swift:119-121 | a flag whose first match is the `-v, --verbose` option sets `verbose`, does not end the run, and changes nothing else |
| CliProperties.UnmatchedFlag | THGCLI/CLI.swift:120-128 | an unmatched flag fires nothing. With strict checking it writes the error and the command's help and ends with status 1. Without it the run traps |
| CliProperties.FirstTokenSeesNoOptions | THGCLI/CLI.swift:102-128 | on a fresh command the first flag token matches nothing, not even `--help`, while the global options are stored |
| CliProperties.StopMarkerEndsParsing | THGCLI/CLI.swift:89-94 | the tokens after "--" have no influence on parsing |
| CliProperties.ConsumedStopMarkerStillHalts | THGCLI/CLI.swift:89-100 | a "--" taken as a flag's value still ends parsing after that flag |
| CliProperties.EqualsFormMatchesLookahead | THGCLI/CLI.swift:132-148 | "flag=value" and "flag value" give the same parse when the flag and the value are not "--", the value is not empty, no flag contains '=', the first match takes a value, and the flag written is the flag matching records (no later declared matching option records a different flag) |
| CliProperties.EqualsFormStep | THGCLI/CLI.swift:134-141 | when the written flag is the flag matching records, contains no '=' (nor does any declared flag), the value is not empty and the first match takes a value, the step for "flag=value" fires the first match with the flag and the value and skips nothing |
| CliProperties.LookaheadFormStep | THGCLI/CLI.swift:142-148 | when the written flag is the flag matching records and the first match takes a value, the step for "flag" followed by a value fires the first match with both and skips the value unless the run ended |
| CliProperties.EqualsFormParse | THGCLI/CLI.swift:89-151 | under the conditions of `EqualsFormStep`, parsing "flag=value" then the rest fires the first match with the flag and the value, then stops if that ended the run and otherwise parses the rest |
| CliProperties.LookaheadFormParse | THGCLI/CLI.swift:89-151 | when the written flag is the flag matching records, the first match takes a value and neither token is "--", parsing "flag", a value, then the rest fires the first match with both, skips the value, then stops if that ended the run and otherwise parses the rest |
| CliProperties.SkippedToken | THGCLI/CLI.swift:97-100 | a skipped token other than "--" is passed over and clears the skip |
| CliProperties.Deliveries | THGCLI/CLI.swift:162-165 | one firing per positional token, each with no flag and that token as value, in order |
| CliProperties.PositionalsDeliveredInOrder | THGCLI/CLI.swift:153-165 | a run of non-flag tokens fires the first flagless option once per token, in order, and writes nothing |
| CliProperties.PositionalsDroppedWithoutReceiver | THGCLI/CLI.swift:162-165 | without a flagless option with placeholders, non-flag tokens change nothing |
| CliProperties.UnknownCommandNeverExecutes | THGCLI/CLI.swift:73-77 | an unknown command ends the run with the error followed by the summary help; no closure fires and nothing executes |
| CliProperties.KnownCommandExecutesAfterParsing | THGCLI/CLI.swift:37-46 | a known command executes exactly when parsing ran to the end, and its output follows everything parsing wrote |
| Scenarios.VersionLineRepeatsVersion | THGCLI/CLI.swift:20-28 | on a dispatcher built by `init`, the version command prints the version in place of the description |
| Scenarios.CommandNameAloneExecutes | THGCLI/CLI.swift:37-46 | a command line that is only a known command name executes it with nothing parsed |
| Scenarios.ShowVersion | THGCLITests/THGCLITests.swift:87-96 | with further commands registered, the command line `--version` runs to result code 0 and writes only the version line |
| Scenarios.ShowSummaryHelp | THGCLITests/THGCLITests.swift:145-153 | with further commands registered, the command line `--help` runs to result code 0 and lists exactly those of them whose name does not start with "-", and no built-in |
| Scenarios.SummaryAfterBuiltins | ELCLI/Commands/HelpCommand.swift:25-40 | with the built-ins registered first, the summary is the header, the lines of the later commands and a closing line |

## Left out

- Writing to file handles, UTF-8 encoding, and the unit-test hooks of `exit` and `exitSuccess` are not modelled. Output becomes a chunk log and termination a status.
- `NSProcessInfo` is not modelled. The process name and the argument vector are parameters.
- `Stdin` exists in the stream type but nothing writes to it.
- The debug-build `assertionFailure` for duplicate command names is left out. Release behaviour, the first match, is modelled.
- Swift's character count is taken as the sequence length. Grapheme clusters are not modelled.
- Strings are compared as sequences of characters. Swift's `==` and `hasPrefix` compare by Unicode canonical equivalence, so command lookup, the stop marker and flag matching treat differently composed but equivalent texts as different here.
- `hasPrefix` is a plain sequence prefix. Foundation's answer of false for an empty prefix is not modelled; no prefix the toolkit compares is empty except a declared empty flag.
- Closures of the embedding program are not executed. Their firings are recorded, so a closure that itself calls back into the dispatcher is not modelled.
- Cli.AddCommands: does not run each command's `configureOptions`, which belongs to the embedding program; it takes commands that already ran it. `Commands.ConfigureOptions` stands for one that adds options in turn.
- Cli.Run: the `CLIResult` a user command's `execute` builds is modelled as its result code with the command itself as `executedCommand`; the built-ins return a result code.
- Cli.Execute: a user command's `execute(otherParams:)` belongs to the embedding program and is not executed. In the model it writes nothing and returns the constant `Kind.UserCommand.resultCode`, whatever parsing did: it does not see `verbose` or what its closures did, and it cannot write to either stream. `CliProperties.KnownCommandExecutesAfterParsing` and `Scenarios.CommandNameAloneExecutes` rest on this for user commands. The contract states only the result code and the empty output. The built-ins' output is stated by `BuiltIns.HelpExecuteLayout` and `BuiltIns.VersionExecute`.
- The `quiet` flag is carried but never set, as in the source.
- Output.PrintOption: requires every flag-bearing option to have a usage text, as does everything that renders help (`Commands.HelpText`, `Cli.Run`). The adders `addOption` and `addOptionValue` always supply one, so the trap of force-unwrapping a missing usage, reachable only through the internal initialiser, is not modelled.
- Cli.Invoke: states only well-formedness and that the store stays. What each closure does is stated by `CliProperties.MatchedFlagFires`, `CliProperties.HelpFlagShowsHelpAndExits` and `CliProperties.VerboseFlagSetsVerbose`.
- Cli.RejectOption: states only that the run ends and the command stays well formed. The error text and the help are stated by `CliProperties.UnmatchedFlag`.
- Cli.FireOption: states only the skip condition. The firing is stated by `CliProperties.MatchedFlagFires`.
- Cli.FlagStep: states only the skip condition. Its cases are stated by `CliProperties.MatchedFlagFires` and `CliProperties.UnmatchedFlag`.
- Cli.PositionalStep: states only that nothing is skipped. Delivery is stated by `CliProperties.PositionalsDeliveredInOrder` and `CliProperties.PositionalsDroppedWithoutReceiver`.
- Cli.Step: states only that the store exists afterwards. Its cases are stated by the `CliProperties` lemmas.
- Cli.ProcessTokens: states only well-formedness. What parsing does is stated by `Cli.ProcessTokensFrame` and the `CliProperties` lemmas.
- Cli.SplitOnce: states only the number and non-emptiness of the pieces. The split of a "flag=value" token is stated by `CliProperties.SplitAtFirstEquals`.
- Options.Positionals: states membership only. Declaration order is stated by `Options.PositionalsOfConcat` and `Options.FirstPositional`.
- Options.FlagBearing: states membership only. Declaration order is stated by `Options.FlagBearingOfConcat`.
- Output.JoinFlags: states the empty and one-flag cases, the first flag and the length. The separators and the later flags are stated by `Output.JoinFlagsCons`.
- Cli.FirstPrefixFlag: states that the flag found prefixes the token. That it is the first such flag is stated by `Cli.FirstPrefixFlagIsFirst`.
- Cli.Matching: states membership only. Declaration order is stated by `Cli.MatchingOfConcat`, `Cli.FirstMatch` and `Cli.LastMatch`.
- Cli.Named: states membership only. Registration order is stated by `Cli.NamedOfConcat` and `Cli.FirstNamed`.
- BuiltIns.Listed: states membership only. Registration order is stated by `BuiltIns.ListedOfConcat`.
- Commands.PrintOptions: states only the line count. The lines are stated by `Commands.PrintOptionsLine`.
- Commands.UsageLine: states only the write count. The content is stated by `Commands.UsageLineLayout`.
- Commands.HelpText: states only the line count. The content is stated by `Commands.HelpTextFrame` and `Commands.HelpTextListsPrintableOptions`.
- BuiltIns.PrintCommands: states only the line count. The lines are stated by `BuiltIns.PrintCommandsLine`.
- BuiltIns.HelpExecute: states only the result code and the line count. The content is stated by `BuiltIns.HelpExecuteLayout`.

=== FILE: builtins.dfy ===
/** The two built-in commands (ELCLI/Commands/HelpCommand.swift and
    ELCLI/Commands/VersionCommand.swift). Each holds a read-only reference
    to the dispatcher; here the application metadata and the registered
    command list they read are passed in. */
module BuiltIns {
  import opened Wrappers
  import opened SeqFacts
  import opened Output
  import opened Commands

  const HelpCommandName: string := "--help"
  const VersionCommandName: string := "--version"

  /** A freshly constructed `HelpCommand`; `configureOptions` adds nothing. */
  function HelpCommand(): (c: Command)
    ensures c.name == HelpCommandName && c.helpDescription == ""
    ensures !c.failOnUnrecognizedOptions && c.kind == HelpBuiltin
    ensures c.store.None? && !c.verbose && !c.quiet
  {
    NewCommand(HelpCommandName, "", false, HelpBuiltin)
  }

  /** A freshly constructed `VersionCommand`; `configureOptions` adds nothing. */
  function VersionCommand(): (c: Command)
    ensures c.name == VersionCommandName && c.helpDescription == ""
    ensures !c.failOnUnrecognizedOptions && c.kind == VersionBuiltin
    ensures c.store.None? && !c.verbose && !c.quiet
  {
    NewCommand(VersionCommandName, "", false, VersionBuiltin)
  }

  /** The commands the summary lists: those whose name does not start with "-". */
  function Listed(commands: seq<Command>): (r: seq<Command>)
    ensures |r| <= |commands|
    ensures forall i :: 0 <= i < |r| ==> r[i] in commands && !("-" <= r[i].name)
  {
    if |commands| == 0 then []
    else (if "-" <= commands[0].name then [] else [commands[0]]) + Listed(commands[1..])
  }

  /** No command whose name does not start with "-" is left out of the summary. */
  lemma {:induction false} ListedComplete(commands: seq<Command>)
    ensures forall c :: c in commands && !("-" <= c.name) ==> c in Listed(commands)
  {
    if |commands| > 0 {
      ListedComplete(commands[1..]);
      assert forall c :: c in commands ==> c == commands[0] || c in commands[1..];
    }
  }

  /** `Listed` keeps registration order. */
  lemma {:induction false} ListedOfConcat(a: seq<Command>, b: seq<Command>)
    ensures Listed(a + b) == Listed(a) + Listed(b)
  {
    if |a| > 0 {
      assert (a + b)[1..] == a[1..] + b;
      ListedOfConcat(a[1..], b);
    } else {
      assert a + b == b;
    }
  }

  /** `printCommand` applied to each registered command in registration order. */
  function PrintCommands(commands: seq<Command>): (r: seq<Chunk>)
    ensures |r| == |Listed(commands)|
  {
    if |commands| == 0 then []
    else PrintCommand(commands[0].name, commands[0].helpDescription) + PrintCommands(commands[1..])
  }

  /** The summary lines of registered commands follow registration order:
      the lines of a concatenation are the lines of its parts. */
  lemma {:induction false} PrintCommandsOfConcat(a: seq<Command>, b: seq<Command>)
    ensures PrintCommands(a + b) == PrintCommands(a) + PrintCommands(b)
  {
    if |a| > 0 {
      assert (a + b)[1..] == a[1..] + b;
      assert (a + b)[0] == a[0];
      PrintCommandsOfConcat(a[1..], b);
      var line := PrintCommand(a[0].name, a[0].helpDescription);
      assert line + (PrintCommands(a[1..]) + PrintCommands(b)) == line + PrintCommands(a[1..]) + PrintCommands(b);
    } else {
      assert a + b == b;
    }
  }

  /** Line `i` of the command list is the summary line of the `i`-th listed
      command: one line per listed command, in registration order. */
  lemma {:induction false} PrintCommandsLine(commands: seq<Command>, i: int)
    requires 0 <= i < |Listed(commands)|
    ensures PrintCommands(commands)[i]
         == Writeln(Stdout, CommandLine(Listed(commands)[i].name, Listed(commands)[i].helpDescription))
    decreases |commands|
  {
    var rest := commands[1..];
    if "-" <= commands[0].name {
      SameAt(Listed(commands), Listed(rest), i);
      SameAt(PrintCommands(commands), PrintCommands(rest), i);
      PrintCommandsLine(rest, i);
    } else {
      var line := Writeln(Stdout, CommandLine(commands[0].name, commands[0].helpDescription));
      ConsAt(Listed(commands), commands[0], Listed(rest), i);
      ConsAt(PrintCommands(commands), line, PrintCommands(rest), i);
      if i > 0 { PrintCommandsLine(rest, i - 1); }
    }
  }

  /** The lines `HelpCommand.execute` writes before the command list. */
  function SummaryHeader(processName: string, appName: string): (out: seq<Chunk>) {
    [ Write(Stdout, "usage: "),
      Write(Stdout, processName + " "),
      Writeln(Stdout, "<command> [<args>]\n"),
      Writeln(Stdout, "The most commonly used " + appName + " commands are:") ]
  }

  /** `HelpCommand.execute`: the summary header, one line per listed
      command, a closing empty line; the result code is 0. */
  function HelpExecute(appName: string, processName: string, commands: seq<Command>): (r: (int, seq<Chunk>))
    ensures r.0 == 0
    ensures |r.1| == 5 + |Listed(commands)|
  {
    (0, SummaryHeader(processName, appName) + PrintCommands(commands) + [Writeln(Stdout, "")])
  }

  /** The summary starts with the header, lists every command whose name
      does not start with "-" in registration order, and ends with an empty line. */
  lemma {:induction false} HelpExecuteLayout(appName: string, processName: string, commands: seq<Command>)
    ensures var out, listed := HelpExecute(appName, processName, commands).1, Listed(commands);
      && out[..4] == SummaryHeader(processName, appName)
      && (forall i :: 0 <= i < |listed| ==>
            out[4 + i] == Writeln(Stdout, CommandLine(listed[i].name, listed[i].helpDescription)))
      && out[|out| - 1] == Chunk(Stdout, "\n")
  {
    var header, lines := SummaryHeader(processName, appName), PrintCommands(commands);
    var out := HelpExecute(appName, processName, commands).1;
    forall i | 0 <= i < |Listed(commands)|
      ensures out[4 + i] == Writeln(Stdout, CommandLine(Listed(commands)[i].name, Listed(commands)[i].helpDescription))
    {
      PrintCommandsLine(commands, i);
      MiddleAt(out, header, lines, [Writeln(Stdout, "")], i);
    }
  }

  /** `VersionCommand.execute`: exactly one line naming the application, its
      version and its description; the result code is 0. */
  function VersionExecute(appName: string, appVersion: string, appDescription: string): (r: (int, seq<Chunk>))
    ensures r.0 == 0
    ensures |r.1| == 1 && r.1[0].stream == Stdout
    ensures r.1[0].text == appName + " version " + appVersion + ", " + appDescription + "\n"
  {
    (0, [Writeln(Stdout, appName + " version " + appVersion + ", " + appDescription)])
  }
}

=== FILE: cli.dfy ===
/** The dispatcher of THGCLI/CLI.swift: command identification, token
    parsing with callback invocation, and `run`.

    Closures are not executed: every firing of an embedding program's
    closure is recorded as an `Event` carrying the flag and value it was
    passed, the verbose option sets the command's `verbose` field, and the
    help option renders the command's help and ends the run. Everything
    that would end the process (`exit`, `exitSuccess`, a runtime trap)
    becomes a `Status` that stops the run. */
module Cli {
  import opened Wrappers
  import opened Options
  import opened Output
  import opened Commands
  import opened BuiltIns

  /** The dispatcher. `arguments` is the argument list after the executable
      path (`allArgumentsToExecutable`); `processName` is the name the help
      texts print. */
  datatype Cli = Cli(
    appName: string,
    appVersion: string,
    appDescription: string,
    executableName: string,
    processName: string,
    arguments: Option<seq<string>>,
    commands: seq<Command>)
  {
    predicate WellFormed() {
      forall c :: c in commands ==> c.WellFormed()
    }
  }

  /** `init(name:version:description:)` given the process arguments `argv`
      (executable path first). The description argument is not stored: the
      source assigns the version to `appDescription`. The built-in commands
      are registered first, version before help. */
  function NewCli(name: string, version: string, description: string, processName: string, argv: seq<string>): (cli: Cli)
    requires |argv| >= 1
    ensures cli.appName == name && cli.appVersion == version
    ensures cli.appDescription == version
    ensures cli.executableName == argv[0] && cli.arguments == Some(argv[1..])
    ensures cli.commands == [VersionCommand(), HelpCommand()]
    ensures cli.WellFormed()
  {
    var cli := Cli(name, version, version, argv[0], processName, Some(argv[1..]), []);
    AddCommands(cli, [VersionCommand(), HelpCommand()])
  }

  /** `addCommands`: registers commands after those already registered.
      Each command is expected to have run its `configureOptions` already. */
  function AddCommands(cli: Cli, commands: seq<Command>): (r: Cli)
    ensures r.commands == cli.commands + commands
    ensures r == cli.(commands := r.commands)
    ensures cli.WellFormed() && (forall c :: c in commands ==> c.WellFormed()) ==> r.WellFormed()
  {
    cli.(commands := cli.commands + commands)
  }

  /** `isFlag`: a token is a flag when it starts with "-". */
  function IsFlag(arg: string): (b: bool)
    ensures b <==> |arg| > 0 && arg[0] == '-'
  {
    "-" <= arg
  }

  /** `isStopMarker`: the token "--" ends parsing. */
  function IsStopMarker(arg: string): (b: bool)
    ensures b <==> |arg| == 2 && arg[0] == '-' && arg[1] == '-'
    ensures b ==> IsFlag(arg)
  {
    arg == "--"
  }

  /** The first of `flags` that `arg` starts with. */
  function FirstPrefixFlag(flags: seq<string>, arg: string): (r: Option<string>)
    ensures r.Some? ==> r.value in flags && r.value <= arg
    ensures r.None? <==> forall g :: g in flags ==> !(g <= arg)
  {
    if |flags| == 0 then None
    else if flags[0] <= arg then Some(flags[0])
    else
      assert forall g :: g in flags ==> g == flags[0] || g in flags[1..];
      FirstPrefixFlag(flags[1..], arg)
  }

  /** The flag found is the first declared one the token starts with: a
      flag is found exactly when it prefixes the token and no earlier flag does. */
  lemma {:induction false} FirstPrefixFlagIsFirst(flags: seq<string>, arg: string, k: int)
    requires 0 <= k < |flags| && flags[k] <= arg
    requires forall j :: 0 <= j < k ==> !(flags[j] <= arg)
    ensures FirstPrefixFlag(flags, arg) == Some(flags[k])
  {
    if k > 0 {
      assert forall j :: 0 <= j < k - 1 ==> flags[1..][j] == flags[j + 1];
      FirstPrefixFlagIsFirst(flags[1..], arg, k - 1);
    }
  }

  /** An option matches a flag token when one of its flags is a prefix of it. */
  predicate MatchesFlag(o: CliOption, arg: string) {
    o.flags.Some? && FirstPrefixFlag(o.flags.value, arg).Some?
  }

  /** The options that match a flag token, in declaration order (the source's `filter`). */
  function Matching(opts: seq<CliOption>, arg: string): (r: seq<CliOption>)
    ensures |r| <= |opts|
    ensures forall i :: 0 <= i < |r| ==> r[i] in opts && MatchesFlag(r[i], arg)
  {
    if |opts| == 0 then []
    else (if MatchesFlag(opts[0], arg) then [opts[0]] else []) + Matching(opts[1..], arg)
  }

  /** Every option that matches the token is among the matching ones. */
  lemma {:induction false} MatchingComplete(opts: seq<CliOption>, arg: string)
    ensures forall o :: o in opts && MatchesFlag(o, arg) ==> o in Matching(opts, arg)
  {
    if |opts| > 0 {
      MatchingComplete(opts[1..], arg);
      assert forall o :: o in opts ==> o == opts[0] || o in opts[1..];
    }
  }

  /** `Matching` keeps declaration order. */
  lemma {:induction false} MatchingOfConcat(a: seq<CliOption>, b: seq<CliOption>, arg: string)
    ensures Matching(a + b, arg) == Matching(a, arg) + Matching(b, arg)
  {
    if |a| > 0 {
      assert (a + b)[1..] == a[1..] + b;
      MatchingOfConcat(a[1..], b, arg);
    } else {
      assert a + b == b;
    }
  }

  /** No option matches, so none is among the matching ones. */
  lemma NoneMatching(opts: seq<CliOption>, arg: string)
    requires forall j :: 0 <= j < |opts| ==> !MatchesFlag(opts[j], arg)
    ensures Matching(opts, arg) == []
  {
  }

  /** The option a flag token fires, `Matching(opts, arg)[0]`, is the first
      declared option that matches it. */
  lemma {:induction false} FirstMatch(opts: seq<CliOption>, arg: string, k: int)
    requires 0 <= k < |opts| && MatchesFlag(opts[k], arg)
    requires forall j :: 0 <= j < k ==> !MatchesFlag(opts[j], arg)
    ensures |Matching(opts, arg)| > 0 && Matching(opts, arg)[0] == opts[k]
  {
    if k > 0 {
      assert forall j :: 0 <= j < k - 1 ==> opts[1..][j] == opts[j + 1];
      FirstMatch(opts[1..], arg, k - 1);
    }
  }

  /** The last of the matching options, whose flag `optionFlag` ends up
      holding, is the last declared option that matches. */
  lemma {:induction false} LastMatch(opts: seq<CliOption>, arg: string, k: int)
    requires 0 <= k < |opts| && MatchesFlag(opts[k], arg)
    requires forall j :: k < j < |opts| ==> !MatchesFlag(opts[j], arg)
    ensures var m := Matching(opts, arg); |m| > 0 && m[|m| - 1] == opts[k]
    decreases k
  {
    var rest := opts[1..];
    assert forall j :: 0 <= j < |rest| ==> rest[j] == opts[j + 1];
    if k == 0 {
      NoneMatching(rest, arg);
    } else {
      LastMatch(rest, arg, k - 1);
    }
  }

  /** The flag the source's `filter` closure leaves in `optionFlag`. The
      closure runs for every option and overwrites `optionFlag` for each one
      that matches, so the value left is the matching flag of the LAST
      matching option, while the option invoked is the first. */
  function MatchedFlagFrom(opts: seq<CliOption>, arg: string, optionFlag: Option<string>): (r: Option<string>)
    ensures var m := Matching(opts, arg);
      r == if |m| == 0 then optionFlag else FirstPrefixFlag(m[|m| - 1].flags.value, arg)
  {
    if |opts| == 0 then optionFlag
    else
      var next := if MatchesFlag(opts[0], arg) then FirstPrefixFlag(opts[0].flags.value, arg) else optionFlag;
      MatchedFlagFrom(opts[1..], arg, next)
  }

  /** `optionFlag` after filtering, starting from nil as the source does. */
  function MatchedFlag(opts: seq<CliOption>, arg: string): (r: Option<string>)
    ensures r.Some? <==> |Matching(opts, arg)| > 0
    ensures r.Some? ==> r.value <= arg
    ensures var m := Matching(opts, arg);
      |m| > 0 ==> r == FirstPrefixFlag(m[|m| - 1].flags.value, arg)
  {
    MatchedFlagFrom(opts, arg, None)
  }

  /** The character sequence `split(maxSplit: 1, allowEmptySlices: false)`
      at '=' produces: at most one split, empty pieces dropped, and an
      empty piece before a separator does not use up the one split. */
  function SplitOnce(s: string): (parts: seq<string>)
    ensures |parts| <= 2
    ensures forall i :: 0 <= i < |parts| ==> |parts[i]| > 0
  {
    if |s| == 0 then [] else SplitFrom(s, 0, 0)
  }

  /** The scan of the split: `start` begins the current piece, `j` is the
      character being examined. */
  function SplitFrom(s: string, start: nat, j: nat): (parts: seq<string>)
    requires start <= j <= |s|
    decreases |s| - j
    ensures |parts| <= 2
    ensures forall i :: 0 <= i < |parts| ==> |parts[i]| > 0
  {
    if j == |s| then
      (if start < |s| then [s[start..]] else [])
    else if s[j] == '=' then
      if start < j then
        [s[start..j]] + (if j + 1 < |s| then [s[j + 1..]] else [])
      else
        SplitFrom(s, j + 1, j + 1)
    else
      SplitFrom(s, start, j + 1)
  }

  /** What a matched option receives for token `arg` whose `optionFlag` is
      `flag`, given the token after it (`next`): the flag passed to the
      closure, the value, and whether the next token is consumed. */
  function ValueFor(option: CliOption, flag: string, arg: string, next: Option<string>): (r: (string, Option<string>, bool))
    ensures option.valueSignatures.None? ==> r == (flag, None, false)
    ensures option.valueSignatures.Some? && !(flag + "=" <= arg) ==> r == (flag, next, next.Some?)
    ensures option.valueSignatures.Some? && flag + "=" <= arg ==> !r.2
  {
    if option.valueSignatures.None? then (flag, None, false)
    else if flag + "=" <= arg then
      var parts := SplitOnce(arg);
      if |parts| == 2 then (parts[0], Some(parts[1]), false) else (flag, None, false)
    else if next.Some? then (flag, next, true)
    else (flag, None, false)
  }

  /** One firing of a closure of the embedding program. */
  datatype Event = Event(tag: string, flag: Option<string>, value: Option<string>)

  /** What parsing has done so far: the command's current state, the
      closure firings, and the output written. */
  datatype Session = Session(command: Command, events: seq<Event>, out: seq<Chunk>)

  /** Runs one option closure with `(flag, value)`. */
  function Invoke(callback: Callback, flag: Option<string>, value: Option<string>, s: Session, processName: string): (r: (Session, Option<Status>))
    requires s.command.WellFormed()
    ensures r.0.command.WellFormed()
    ensures s.command.store.Some? ==> r.0.command.store.Some?
  {
    match callback
    case Record(tag) => (s.(events := s.events + [Event(tag, flag, value)]), None)
    case SetVerbose => (s.(command := s.command.(verbose := true)), None)
    case ShowHelpAndExit =>
      var (help, c1) := ShowHelp(s.command, processName);
      (s.(command := c1, out := s.out + help), Some(ExitSuccess()))
  }

  /** The message of the "unknown option" failure: the token and the
      command name, each between a backquote and a quote. */
  function UnknownOptionMessage(arg: string, name: string): (m: string)
    ensures |m| == 32 + |arg| + |name|
    ensures m[..16] == "unknown option `" && m[16..16 + |arg|] == arg
    ensures m[16 + |arg|..31 + |arg|] == "' for command `"
    ensures m[31 + |arg|..31 + |arg| + |name|] == name && m[|m| - 1] == '\''
  {
    "unknown option `" + arg + "' for command `" + name + "'"
  }

  /** The message of the "unknown command" failure: the name between a
      backquote and a quote. */
  function UnknownCommandMessage(name: string): (m: string)
    ensures |m| == 18 + |name|
    ensures m[..17] == "unknown command `" && m[17..17 + |name|] == name && m[|m| - 1] == '\''
  {
    "unknown command `" + name + "'"
  }

  const IndexOutOfRange: string := "index out of range"

  /** What one processed token does: the session afterwards, the status if
      the run ended, and whether the following token is to be skipped. */
  datatype StepResult = StepResult(session: Session, halted: Option<Status>, skipNext: bool)

  /** The "unknown option" failure: the error, then the command's help. */
  function RejectOption(arg: string, s: Session, processName: string): (r: StepResult)
    requires s.command.WellFormed() && s.command.store.Some?
    ensures r.session.command.WellFormed() && r.session.command.store.Some?
    ensures r.halted.Some? && !r.skipNext
  {
    var (help, c2) := ShowHelp(s.command, processName);
    var (out, status) := Exit(UnknownOptionMessage(arg, s.command.name), help);
    StepResult(s.(command := c2, out := s.out + out), Some(status), false)
  }

  /** The matched `option` fires with the flag and value `ValueFor` gives. */
  function FireOption(option: CliOption, flag: string, arg: string, next: Option<string>, s: Session, processName: string): (r: StepResult)
    requires s.command.WellFormed()
    ensures r.session.command.WellFormed()
    ensures s.command.store.Some? ==> r.session.command.store.Some?
    ensures r.skipNext ==> next.Some? && r.halted.None?
  {
    var (passed, value, skip) := ValueFor(option, flag, arg, next);
    var (s2, halted) := Invoke(option.callback, Some(passed), value, s, processName);
    StepResult(s2, halted, skip && halted.None?)
  }

  /** A flag token against the option list `opts` just read: no match
      fails or traps, otherwise the first matching option fires. */
  function FlagStep(arg: string, next: Option<string>, opts: seq<CliOption>, s: Session, processName: string): (r: StepResult)
    requires s.command.WellFormed() && s.command.store.Some?
    ensures r.session.command.WellFormed() && r.session.command.store.Some?
    ensures r.skipNext ==> next.Some? && r.halted.None?
  {
    var matching := Matching(opts, arg);
    if |matching| == 0 && s.command.failOnUnrecognizedOptions then
      RejectOption(arg, s, processName)
    else if |matching| == 0 then
      // `matchingOptions[0]` on an empty array
      StepResult(s, Some(Trap(IndexOutOfRange)), false)
    else
      FireOption(matching[0], MatchedFlag(opts, arg).value, arg, next, s, processName)
  }

  /** A token that is not a flag: delivered on its own to the first
      positional option, or dropped when there is none. */
  function PositionalStep(arg: string, opts: seq<CliOption>, s: Session, processName: string): (r: StepResult)
    requires s.command.WellFormed() && s.command.store.Some?
    ensures r.session.command.WellFormed() && r.session.command.store.Some?
    ensures !r.skipNext
  {
    var flagless := Positionals(opts);
    if |flagless| > 0 then
      var (s2, halted) := Invoke(flagless[0].callback, None, Some(arg), s, processName);
      StepResult(s2, halted, false)
    else
      StepResult(s, None, false)
  }

  /** The body of the source's parsing loop for a token that is neither the
      stop marker nor skipped. The option list is read afresh for every
      such token, through the lazy getter. */
  function Step(arg: string, next: Option<string>, s: Session, processName: string): (r: StepResult)
    requires s.command.WellFormed()
    ensures r.session.command.WellFormed() && r.session.command.store.Some?
    ensures r.skipNext ==> next.Some? && r.halted.None?
  {
    var (opts, c1) := ReadOptions(s.command);
    var s1 := s.(command := c1);
    if IsFlag(arg) then FlagStep(arg, next, opts, s1, processName)
    else PositionalStep(arg, opts, s1, processName)
  }

  /** The outcome of parsing: the session, and the status if the run ended. */
  datatype Parse = Parse(session: Session, halted: Option<Status>)

  /** `processArguments` on the tokens after the command name. `skip` is the
      source's `skipNext`; the stop marker is checked before it. */
  function ProcessTokens(args: seq<string>, skip: bool, s: Session, processName: string): (r: Parse)
    requires s.command.WellFormed()
    decreases |args|
    ensures r.session.command.WellFormed()
  {
    if |args| == 0 then Parse(s, None)
    else if IsStopMarker(args[0]) then Parse(s, None)
    else if skip then ProcessTokens(args[1..], false, s, processName)
    else
      var st := Step(args[0], if |args| > 1 then Some(args[1]) else None, s, processName);
      if st.halted.Some? then Parse(st.session, st.halted)
      else ProcessTokens(args[1..], st.skipNext, st.session, processName)
  }

  /** `t` is a later state of session `s`: the same command, apart from its
      option store and verbose flag, and logs that only grew. */
  predicate Extends(s: Session, t: Session) {
    SameIdentity(t.command, s.command) && s.events <= t.events && s.out <= t.out
  }

  lemma ExtendsTransitive(s: Session, t: Session, u: Session)
    requires Extends(s, t) && Extends(t, u)
    ensures Extends(s, u)
  {
  }

  /** A closure never changes the command's identity or erases what was logged. */
  lemma InvokeFrame(callback: Callback, flag: Option<string>, value: Option<string>, s: Session, processName: string)
    requires s.command.WellFormed()
    ensures Extends(s, Invoke(callback, flag, value, s, processName).0)
  {
  }

  /** Nor does one flag token. */
  lemma FlagStepFrame(arg: string, next: Option<string>, opts: seq<CliOption>, s: Session, processName: string)
    requires s.command.WellFormed() && s.command.store.Some?
    ensures Extends(s, FlagStep(arg, next, opts, s, processName).session)
  {
    var matching := Matching(opts, arg);
    if |matching| > 0 {
      var (passed, value, _) := ValueFor(matching[0], MatchedFlag(opts, arg).value, arg, next);
      InvokeFrame(matching[0].callback, Some(passed), value, s, processName);
    }
  }

  /** Nor does one positional token. */
  lemma PositionalStepFrame(arg: string, opts: seq<CliOption>, s: Session, processName: string)
    requires s.command.WellFormed() && s.command.store.Some?
    ensures Extends(s, PositionalStep(arg, opts, s, processName).session)
  {
    if |Positionals(opts)| > 0 {
      InvokeFrame(Positionals(opts)[0].callback, None, Some(arg), s, processName);
    }
  }

  /** Nor does one processed token. */
  lemma StepFrame(arg: string, next: Option<string>, s: Session, processName: string)
    requires s.command.WellFormed()
    ensures Extends(s, Step(arg, next, s, processName).session)
  {
    var (opts, c1) := ReadOptions(s.command);
    var s1 := s.(command := c1);
    if IsFlag(arg) {
      FlagStepFrame(arg, next, opts, s1, processName);
    } else {
      PositionalStepFrame(arg, opts, s1, processName);
    }
  }

  /** Parsing keeps the command's identity and only appends to the closure
      trace and the output. */
  lemma {:induction false} ProcessTokensFrame(args: seq<string>, skip: bool, s: Session, processName: string)
    requires s.command.WellFormed()
    ensures Extends(s, ProcessTokens(args, skip, s, processName).session)
    decreases |args|
  {
    if |args| > 0 && !IsStopMarker(args[0]) {
      if skip {
        ProcessTokensFrame(args[1..], false, s, processName);
      } else {
        var next := if |args| > 1 then Some(args[1]) else None;
        var st := Step(args[0], next, s, processName);
        StepFrame(args[0], next, s, processName);
        if st.halted.None? {
          ProcessTokensFrame(args[1..], st.skipNext, st.session, processName);
          ExtendsTransitive(s, st.session, ProcessTokens(args[1..], st.skipNext, st.session, processName).session);
        }
      }
    }
  }

  /** The registered commands whose name is exactly `name`, in registration order. */
  function Named(commands: seq<Command>, name: string): (r: seq<Command>)
    ensures |r| <= |commands|
    ensures forall i :: 0 <= i < |r| ==> r[i] in commands && r[i].name == name
  {
    if |commands| == 0 then []
    else (if commands[0].name == name then [commands[0]] else []) + Named(commands[1..], name)
  }

  /** Every command registered under `name` is among those `Named` finds. */
  lemma {:induction false} NamedComplete(commands: seq<Command>, name: string)
    ensures forall c :: c in commands && c.name == name ==> c in Named(commands, name)
  {
    if |commands| > 0 {
      NamedComplete(commands[1..], name);
      assert forall c :: c in commands ==> c == commands[0] || c in commands[1..];
    }
  }

  /** `Named` keeps registration order. */
  lemma {:induction false} NamedOfConcat(a: seq<Command>, b: seq<Command>, name: string)
    ensures Named(a + b, name) == Named(a, name) + Named(b, name)
  {
    if |a| > 0 {
      assert (a + b)[1..] == a[1..] + b;
      NamedOfConcat(a[1..], b, name);
    } else {
      assert a + b == b;
    }
  }

  /** The command `identifyCommand` returns, `Named(commands, name)[0]`, is
      the first one registered under the name. */
  lemma {:induction false} FirstNamed(commands: seq<Command>, name: string, k: int)
    requires 0 <= k < |commands| && commands[k].name == name
    requires forall j :: 0 <= j < k ==> commands[j].name != name
    ensures |Named(commands, name)| > 0 && Named(commands, name)[0] == commands[k]
  {
    if k > 0 {
      assert forall j :: 0 <= j < k - 1 ==> commands[1..][j] == commands[j + 1];
      FirstNamed(commands[1..], name, k - 1);
    }
  }

  datatype Lookup = NoArguments | Unknown(out: seq<Chunk>, status: Status) | Found(command: Command)

  /** `identifyCommand`: token 0 names the command, compared by exact
      equality. No match writes the error and the summary help and ends
      the run; several matches (an assertion failure in debug builds) use
      the first. */
  function IdentifyCommand(cli: Cli, args: seq<string>): (r: Lookup)
    ensures r.NoArguments? <==> |args| == 0
    ensures r.Found? ==> |args| > 0 && |Named(cli.commands, args[0])| > 0
    ensures r.Found? ==> r.command in cli.commands && r.command == Named(cli.commands, args[0])[0]
    ensures |args| > 0 && r.Unknown? ==> r.status == Error(UnknownCommandMessage(args[0]))
    ensures |args| > 0 ==> (r.Unknown? <==> forall c :: c in cli.commands ==> c.name != args[0])
  {
    if |args| < 1 then NoArguments
    else
      var name := args[0];
      var found := Named(cli.commands, name);
      NamedComplete(cli.commands, name);
      if |found| == 0 then
        var (out, status) := Exit(UnknownCommandMessage(name), HelpExecute(cli.appName, cli.processName, cli.commands).1);
        Unknown(out, status)
      else
        assert found[0] in found;
        Found(found[0])
  }

  /** The result code a command's `execute` returns. */
  function ResultCode(k: Kind): (code: int) {
    match k
    case UserCommand(code) => code
    case HelpBuiltin => 0
    case VersionBuiltin => 0
  }

  /** `execute` of a command: the result code and the output it writes. */
  function Execute(cli: Cli, c: Command): (r: (int, seq<Chunk>))
    ensures r.0 == ResultCode(c.kind)
    ensures c.kind.UserCommand? ==> r.1 == []
  {
    match c.kind
    case UserCommand(code) => (code, [])
    case HelpBuiltin => HelpExecute(cli.appName, cli.processName, cli.commands)
    case VersionBuiltin => VersionExecute(cli.appName, cli.appVersion, cli.appDescription)
  }

  /** `CLIResult`: what an executed command hands back. */
  datatype CliResult = CliResult(resultCode: Option<int>, resultDescription: Option<string>, executedCommand: Option<Command>)

  /** `CLIResult()`: result code 0, no description, no command. */
  function EmptyCliResult(): (r: CliResult)
    ensures r.resultCode == Some(0) && r.resultDescription.None? && r.executedCommand.None?
  {
    CliResult(Some(0), None, None)
  }

  datatype Outcome = Executed(result: CliResult) | Halted(status: Status)

  /** A run: how it ended, the closure firings, and everything written. */
  datatype RunResult = RunResult(outcome: Outcome, events: seq<Event>, out: seq<Chunk>)

  /** `run`: identify the command, parse the remaining tokens, then execute
      the command once. Absent or empty arguments give no result. */
  function Run(cli: Cli): (r: Option<RunResult>)
    requires cli.WellFormed()
    ensures r.None? <==> cli.arguments.None? || |cli.arguments.value| == 0
    ensures r.Some? && r.value.outcome.Executed? ==>
      var args := cli.arguments.value;
      var result := r.value.outcome.result;
      && |Named(cli.commands, args[0])| > 0
      && result.resultCode == Some(ResultCode(Named(cli.commands, args[0])[0].kind))
      && result.executedCommand.Some?
      && SameIdentity(result.executedCommand.value, Named(cli.commands, args[0])[0])
  {
    match cli.arguments
    case None => None
    case Some(args) =>
      match IdentifyCommand(cli, args)
      case NoArguments => None
      case Unknown(out, status) => Some(RunResult(Halted(status), [], out))
      case Found(command) =>
        var p := ProcessTokens(args[1..], false, Session(command, [], []), cli.processName);
        ProcessTokensFrame(args[1..], false, Session(command, [], []), cli.processName);
        if p.halted.Some? then
          Some(RunResult(Halted(p.halted.value), p.session.events, p.session.out))
        else
          var (code, executionOut) := Execute(cli, p.session.command);
          var result := EmptyCliResult().(resultCode := Some(code), executedCommand := Some(p.session.command));
          Some(RunResult(Executed(result), p.session.events, p.session.out + executionOut))
  }
}

=== FILE: cli_properties.dfy ===
/** Properties of the dispatcher's parsing (THGCLI/CLI.swift) that relate
    several calls or hold for all inputs. */
module CliProperties {
  import opened Wrappers
  import opened SeqFacts
  import opened Options
  import opened Output
  import opened Commands
  import opened BuiltIns
  import opened Cli

  // ---------------------------------------------------------------------
  // Unfolding helpers

  lemma ProcessTokensUnfold(args: seq<string>, s: Session, processName: string)
    requires s.command.WellFormed() && |args| > 0 && !IsStopMarker(args[0])
    ensures var st := Step(args[0], if |args| > 1 then Some(args[1]) else None, s, processName);
      ProcessTokens(args, false, s, processName)
        == if st.halted.Some? then Parse(st.session, st.halted)
           else ProcessTokens(args[1..], st.skipNext, st.session, processName)
  {
  }

  lemma StepOnStoredOptions(arg: string, next: Option<string>, s: Session, processName: string)
    requires s.command.WellFormed() && s.command.store.Some?
    ensures Step(arg, next, s, processName)
      == if IsFlag(arg) then FlagStep(arg, next, s.command.store.value, s, processName)
         else PositionalStep(arg, s.command.store.value, s, processName)
  {
  }

  // ---------------------------------------------------------------------
  // Splitting "--flag=value"

  /** Splitting a token whose first '=' follows a non-empty head yields the
      head and, when it is not empty, everything after that first '='. */
  lemma {:induction false} SplitAtFirstEquals(p: string, v: string)
    requires |p| > 0 && '=' !in p
    ensures SplitOnce(p + "=" + v) == [p] + (if |v| > 0 then [v] else [])
  {
    var s := p + "=" + v;
    ScanToFirstEquals(p, v, 0);
  }

  lemma {:induction false} ScanToFirstEquals(p: string, v: string, j: nat)
    requires |p| > 0 && '=' !in p && j <= |p|
    ensures SplitFrom(p + "=" + v, 0, j) == [p] + (if |v| > 0 then [v] else [])
    decreases |p| - j
  {
    var s := p + "=" + v;
    if j == |p| {
      assert s[j] == '=';
      assert s[0..j] == p;
      assert s[j + 1..] == v;
    } else {
      assert s[j] == p[j];
      assert p[j] in p;
      ScanToFirstEquals(p, v, j + 1);
    }
  }

  /** The `=` form: when the token is the matched flag, '=', and a rest, the
      closure gets that flag and the rest as value (nil when the rest is
      empty), and the next token is never consumed. */
  lemma EqualsFormValue(option: CliOption, flag: string, v: string, next: Option<string>)
    requires option.valueSignatures.Some?
    requires |flag| > 0 && '=' !in flag
    ensures ValueFor(option, flag, flag + "=" + v, next) == (flag, if |v| > 0 then Some(v) else None, false)
  {
    assert flag + "=" <= flag + "=" + v;
    SplitAtFirstEquals(flag, v);
  }

  // ---------------------------------------------------------------------
  // Flag matching

  predicate NoEqualsIn(flags: seq<string>) {
    forall g :: g in flags ==> '=' !in g
  }

  /** No declared flag contains '='. */
  predicate NoEqualsInFlags(opts: seq<CliOption>) {
    forall o :: o in opts && o.flags.Some? ==> NoEqualsIn(o.flags.value)
  }

  /** A flag without '=' is a prefix of `f=v` exactly when it is a prefix of `f`. */
  lemma PrefixIgnoresValue(g: string, f: string, v: string)
    requires '=' !in g && '=' !in f
    ensures g <= f + "=" + v <==> g <= f
  {
    var t := f + "=" + v;
    if g <= t && |g| > |f| {
      // g would contain the '=' at position |f|
      NotAtAnyIndex(g, '=', |f|);
      assert false;
    }
    if g <= t && |g| <= |f| {
      assert g == f[..|g|];
    }
    if g <= f {
      assert g == t[..|g|];
    }
  }

  lemma NotAtAnyIndex(s: string, ch: char, i: int)
    ensures 0 <= i < |s| && ch !in s ==> s[i] != ch
  {
  }

  lemma {:induction false} FirstPrefixIgnoresValue(flags: seq<string>, f: string, v: string)
    requires NoEqualsIn(flags) && '=' !in f
    ensures FirstPrefixFlag(flags, f + "=" + v) == FirstPrefixFlag(flags, f)
  {
    if |flags| > 0 {
      assert flags[0] in flags;
      PrefixIgnoresValue(flags[0], f, v);
      assert NoEqualsIn(flags[1..]) by {
        forall g | g in flags[1..] ensures '=' !in g { assert g in flags; }
      }
      FirstPrefixIgnoresValue(flags[1..], f, v);
    }
  }

  /** Appending "=value" to a flag token does not change which options match it. */
  lemma {:induction false} MatchingIgnoresValue(opts: seq<CliOption>, f: string, v: string)
    requires NoEqualsInFlags(opts) && '=' !in f
    ensures Matching(opts, f + "=" + v) == Matching(opts, f)
  {
    if |opts| > 0 {
      if opts[0].flags.Some? {
        assert opts[0] in opts;
        FirstPrefixIgnoresValue(opts[0].flags.value, f, v);
      }
      MatchingIgnoresValue(opts[1..], f, v);
    }
  }

  /** The option invoked for a flag token is the first match, while the flag
      passed to it is the one the last match recorded: with `-a` declared
      before `-ab`, the token `-abc` fires the `-a` option with flag `-ab`. */
  lemma FirstOptionFiresWithLastFlag(s: Session, processName: string)
    requires s.command.store == Some([
      CliOption(Some(["-a"]), Some(""), None, Record("a")),
      CliOption(Some(["-ab"]), Some(""), None, Record("ab"))])
    ensures Step("-abc", None, s, processName).session.events == s.events + [Event("a", Some("-ab"), None)]
  {
    var opts := s.command.store.value;
    assert "-a" <= "-abc" && "-ab" <= "-abc";
    assert Matching(opts, "-abc") == opts;
  }

  /** In general: the closure of the first declared option that matches a
      flag token fires, and it is passed the flag of the last declared
      option that matches, the first of that option's flags the token
      starts with. This holds for every option that takes no value, and for
      every option when no declared flag contains '='. The value is none,
      the text after the flag and '=' (none when empty), or the next token. */
  lemma FirstDeclaredFiresWithLastDeclaredFlag(arg: string, next: Option<string>, s: Session, processName: string, opts: seq<CliOption>, first: int, last: int)
    requires s.command.WellFormed() && s.command.store == Some(opts) && IsFlag(arg)
    requires 0 <= first < |opts| && MatchesFlag(opts[first], arg)
    requires forall j :: 0 <= j < first ==> !MatchesFlag(opts[j], arg)
    requires 0 <= last < |opts| && MatchesFlag(opts[last], arg)
    requires forall j :: last < j < |opts| ==> !MatchesFlag(opts[j], arg)
    requires opts[first].callback.Record?
    requires opts[first].valueSignatures.None? || NoEqualsInFlags(opts)
    ensures var r, flag := Step(arg, next, s, processName), FirstPrefixFlag(opts[last].flags.value, arg).value;
      var equalsForm := opts[first].valueSignatures.Some? && flag + "=" <= arg;
      var value :=
        if opts[first].valueSignatures.None? then None
        else if equalsForm then (if |arg| > |flag| + 1 then Some(arg[|flag| + 1..]) else None)
        else next;
      && r.halted.None?
      && r.skipNext == (opts[first].valueSignatures.Some? && !equalsForm && next.Some?)
      && r.session.events == s.events + [Event(opts[first].callback.tag, Some(flag), value)]
  {
    FirstMatch(opts, arg, first);
    LastMatch(opts, arg, last);
    MatchedFlagFires(arg, next, s, processName, opts);
    var flag := MatchedFlag(opts, arg).value;
    if opts[first].valueSignatures.Some? && flag + "=" <= arg {
      var v := arg[|flag| + 1..];
      assert arg == flag + "=" + v;
      assert '=' !in flag by {
        assert opts[last] in opts;
      }
      EqualsFormValue(opts[first], flag, v, next);
      StepOnStoredOptions(arg, next, s, processName);
    }
  }

  /** The `=` form and the lookahead form part ways when a later declared
      option has a flag that is a proper prefix of the written one: with
      `--message` declared before `--m`, both taking a value, the recorded
      flag is `--m`, so "--message=x" is not taken as the `=` form. It
      passes `--m` and takes the NEXT token as value, where "--message x"
      passes `--m` and "x". */
  lemma EqualsFormDivergesOnShorterLaterFlag(s: Session, processName: string)
    requires s.command.WellFormed()
    requires s.command.store == Some([
      CliOption(Some(["--message"]), Some(""), Some(["<msg>"]), Record("message")),
      CliOption(Some(["--m"]), Some(""), Some(["<msg>"]), Record("m"))])
    ensures var equalsForm := Step("--message=x", Some("y"), s, processName);
      && equalsForm.session.events == s.events + [Event("message", Some("--m"), Some("y"))]
      && equalsForm.skipNext
    ensures var lookahead := Step("--message", Some("x"), s, processName);
      && lookahead.session.events == s.events + [Event("message", Some("--m"), Some("x"))]
      && lookahead.skipNext
  {
    var opts := s.command.store.value;
    assert "--message" <= "--message=x" && "--m" <= "--message=x";
    assert "--message" <= "--message" && "--m" <= "--message";
    assert !("--m=" <= "--message=x") by { assert "--message=x"[3] != '='; }
    assert !("--m=" <= "--message") by { assert "--message"[3] != '='; }
    assert Matching(opts, "--message=x") == opts;
    assert Matching(opts, "--message") == opts;
  }

  /** A matched flag token fires the first matching option once. Without
      value placeholders it passes no value and consumes nothing; with them
      and without the `=` form it takes the next token, if any, as value and
      skips it. */
  lemma {:induction false} MatchedFlagFires(arg: string, next: Option<string>, s: Session, processName: string, opts: seq<CliOption>)
    requires s.command.WellFormed() && s.command.store == Some(opts)
    requires IsFlag(arg)
    requires |Matching(opts, arg)| > 0 && Matching(opts, arg)[0].callback.Record?
    ensures var option := Matching(opts, arg)[0];
      var flag := MatchedFlag(opts, arg).value;
      var r := Step(arg, next, s, processName);
      && r.halted.None?
      && r.session.command == s.command
      && r.session.out == s.out
      && (option.valueSignatures.None? ==>
            r.session.events == s.events + [Event(option.callback.tag, Some(flag), None)] && !r.skipNext)
      && (option.valueSignatures.Some? && !(flag + "=" <= arg) ==>
            r.session.events == s.events + [Event(option.callback.tag, Some(flag), next)] && r.skipNext == next.Some?)
  {
  }

  /** A flag token whose first match is the global `--help` option renders
      the command's help for the list just read and ends the run
      successfully; no closure of the embedding program fires. */
  lemma HelpFlagShowsHelpAndExits(arg: string, next: Option<string>, s: Session, processName: string, opts: seq<CliOption>)
    requires s.command.WellFormed() && s.command.store == Some(opts)
    requires IsFlag(arg) && |Matching(opts, arg)| > 0 && Matching(opts, arg)[0].callback == ShowHelpAndExit
    ensures var r := Step(arg, next, s, processName);
      && r.halted == Some(SuccessExit) && !r.skipNext
      && r.session.command == s.command
      && r.session.events == s.events
      && r.session.out == s.out + HelpText(processName, s.command.name, opts)
  {
  }

  /** A flag token whose first match is the global `-v`/`--verbose` option
      sets the command's verbose flag and changes nothing else. */
  lemma VerboseFlagSetsVerbose(arg: string, next: Option<string>, s: Session, processName: string, opts: seq<CliOption>)
    requires s.command.WellFormed() && s.command.store == Some(opts)
    requires IsFlag(arg) && |Matching(opts, arg)| > 0 && Matching(opts, arg)[0].callback == SetVerbose
    ensures var r := Step(arg, next, s, processName);
      && r.halted.None?
      && r.session.command == s.command.(verbose := true)
      && r.session.events == s.events && r.session.out == s.out
  {
  }

  /** A flag token no option matches: with `failOnUnrecognizedOptions` the
      run ends with the "unknown option" error followed by the command's
      help; without it the source indexes an empty array. */
  lemma UnmatchedFlag(arg: string, next: Option<string>, s: Session, processName: string, opts: seq<CliOption>)
    requires s.command.WellFormed() && s.command.store == Some(opts)
    requires IsFlag(arg) && |Matching(opts, arg)| == 0
    ensures var r := Step(arg, next, s, processName);
      var message := UnknownOptionMessage(arg, s.command.name);
      && r.session.events == s.events
      && (s.command.failOnUnrecognizedOptions ==>
            && r.halted == Some(Error(message))
            && r.session.out == s.out + [Writeln(Stderr, message)] + HelpText(processName, s.command.name, opts))
      && (!s.command.failOnUnrecognizedOptions ==>
            r.halted == Some(Trap(IndexOutOfRange)) && r.session == s)
  {
  }

  /** The first token parsed for a command whose option store does not exist
      yet sees an empty option list: a flag there never matches, even
      `--help`, although the store is left holding the global options. */
  lemma FirstTokenSeesNoOptions(arg: string, next: Option<string>, s: Session, processName: string)
    requires s.command.store.None? && IsFlag(arg)
    ensures var r := Step(arg, next, s, processName);
      && r.session.command.store == Some([HelpOption(), VerboseOption()])
      && r.session.events == s.events
      && (s.command.failOnUnrecognizedOptions ==> r.halted == Some(Error(UnknownOptionMessage(arg, s.command.name))))
      && (!s.command.failOnUnrecognizedOptions ==> r.halted == Some(Trap(IndexOutOfRange)))
  {
  }

  // ---------------------------------------------------------------------
  // The stop marker

  /** Nothing after a "--" token influences parsing. */
  lemma {:induction false} StopMarkerEndsParsing(a: seq<string>, b: seq<string>, c: seq<string>, skip: bool, s: Session, processName: string)
    requires s.command.WellFormed()
    ensures ProcessTokens(a + ["--"] + b, skip, s, processName) == ProcessTokens(a + ["--"] + c, skip, s, processName)
    decreases |a|
  {
    var x := a + ["--"] + b;
    var y := a + ["--"] + c;
    if |a| > 0 {
      assert x[0] == y[0] == a[0];
      assert x[1..] == a[1..] + ["--"] + b;
      assert y[1..] == a[1..] + ["--"] + c;
      assert x[1] == y[1];
      if !IsStopMarker(a[0]) {
        if skip {
          StopMarkerEndsParsing(a[1..], b, c, false, s, processName);
        } else {
          var st := Step(a[0], Some(x[1]), s, processName);
          if st.halted.None? {
            StopMarkerEndsParsing(a[1..], b, c, st.skipNext, st.session, processName);
          }
        }
      }
    } else {
      assert x[0] == y[0] == "--";
    }
  }

  /** A "--" taken as a flag's lookahead value still ends parsing: after the
      flag's own step nothing else happens. */
  lemma ConsumedStopMarkerStillHalts(f: string, rest: seq<string>, s: Session, processName: string)
    requires s.command.WellFormed() && !IsStopMarker(f)
    ensures var st := Step(f, Some("--"), s, processName);
      ProcessTokens([f, "--"] + rest, false, s, processName) == Parse(st.session, st.halted)
  {
    var x := [f, "--"] + rest;
    assert x[0] == f && x[1] == "--";
    assert x[1..][0] == "--";
  }

  // ---------------------------------------------------------------------
  // "--flag=value" against "--flag value"

  /** The `=` form and the lookahead form of a value-taking flag give the
      same parse, provided neither the flag nor the value is the stop
      marker ("--" alone stops, "--=v" does not), no declared
      flag contains '=', and the flag written is the one matching records. */
  lemma EqualsFormMatchesLookahead(f: string, v: string, rest: seq<string>, s: Session, processName: string, opts: seq<CliOption>)
    requires s.command.WellFormed() && s.command.store == Some(opts)
    requires NoEqualsInFlags(opts)
    requires IsFlag(f) && !IsStopMarker(f) && '=' !in f && |v| > 0 && !IsStopMarker(v)
    requires |Matching(opts, f)| > 0 && Matching(opts, f)[0].valueSignatures.Some?
    requires MatchedFlag(opts, f) == Some(f)
    ensures ProcessTokens([f + "=" + v] + rest, false, s, processName)
         == ProcessTokens([f, v] + rest, false, s, processName)
  {
    EqualsFormParse(f, v, rest, s, processName, opts);
    LookaheadFormParse(f, v, rest, s, processName, opts);
  }

  /** How parsing goes on once the matched option has fired: it stops if the
      closure ended the run, and otherwise continues with `rest`. */
  function AfterFiring(fired: (Session, Option<Status>), rest: seq<string>, processName: string): (p: Parse)
    requires fired.0.command.WellFormed()
  {
    if fired.1.Some? then Parse(fired.0, fired.1) else ProcessTokens(rest, false, fired.0, processName)
  }

  /** Parsing `f=v` then `rest`: the first match fires with `f` and `v`, then `rest` follows. */
  lemma EqualsFormParse(f: string, v: string, rest: seq<string>, s: Session, processName: string, opts: seq<CliOption>)
    requires s.command.WellFormed() && s.command.store == Some(opts)
    requires NoEqualsInFlags(opts)
    requires IsFlag(f) && '=' !in f && |v| > 0
    requires |Matching(opts, f)| > 0 && Matching(opts, f)[0].valueSignatures.Some?
    requires MatchedFlag(opts, f) == Some(f)
    ensures ProcessTokens([f + "=" + v] + rest, false, s, processName)
         == AfterFiring(Invoke(Matching(opts, f)[0].callback, Some(f), Some(v), s, processName), rest, processName)
  {
    var joined := f + "=" + v;
    var next := if |rest| > 0 then Some(rest[0]) else None;
    EqualsFormStep(f, v, next, s, processName, opts);
    var x := [joined] + rest;
    assert x[0] == joined && x[1..] == rest;
    assert !IsStopMarker(joined) by {
      assert |joined| > 2;
    }
    ProcessTokensUnfold(x, s, processName);
  }

  /** Parsing `f`, `v`, then `rest`: the first match fires with `f` and `v`,
      `v` is skipped, then `rest` follows. */
  lemma LookaheadFormParse(f: string, v: string, rest: seq<string>, s: Session, processName: string, opts: seq<CliOption>)
    requires s.command.WellFormed() && s.command.store == Some(opts)
    requires IsFlag(f) && !IsStopMarker(f) && !IsStopMarker(v)
    requires |Matching(opts, f)| > 0 && Matching(opts, f)[0].valueSignatures.Some?
    requires MatchedFlag(opts, f) == Some(f)
    ensures ProcessTokens([f, v] + rest, false, s, processName)
         == AfterFiring(Invoke(Matching(opts, f)[0].callback, Some(f), Some(v), s, processName), rest, processName)
  {
    var fired := Invoke(Matching(opts, f)[0].callback, Some(f), Some(v), s, processName);
    LookaheadFormStep(f, v, s, processName, opts);
    var y := [f, v] + rest;
    assert y[0] == f && y[1] == v && y[1..] == [v] + rest;
    ProcessTokensUnfold(y, s, processName);
    if fired.1.None? {
      SkippedToken(v, rest, fired.0, processName);
    }
  }

  /** A skipped token that is not the stop marker is passed over. */
  lemma SkippedToken(v: string, rest: seq<string>, s: Session, processName: string)
    requires s.command.WellFormed() && !IsStopMarker(v)
    ensures ProcessTokens([v] + rest, true, s, processName) == ProcessTokens(rest, false, s, processName)
  {
    assert ([v] + rest)[0] == v && ([v] + rest)[1..] == rest;
  }

  /** The step for `f=v`: the first match fires with `f` and `v`, nothing is skipped. */
  lemma EqualsFormStep(f: string, v: string, next: Option<string>, s: Session, processName: string, opts: seq<CliOption>)
    requires s.command.WellFormed() && s.command.store == Some(opts)
    requires NoEqualsInFlags(opts)
    requires IsFlag(f) && '=' !in f && |v| > 0
    requires |Matching(opts, f)| > 0 && Matching(opts, f)[0].valueSignatures.Some?
    requires MatchedFlag(opts, f) == Some(f)
    ensures var fired := Invoke(Matching(opts, f)[0].callback, Some(f), Some(v), s, processName);
      Step(f + "=" + v, next, s, processName) == StepResult(fired.0, fired.1, false)
  {
    var joined := f + "=" + v;
    var m := Matching(opts, f);
    assert IsFlag(joined) by {
      assert "-" <= joined;
    }
    assert Matching(opts, joined) == m && MatchedFlag(opts, joined) == Some(f) by {
      MatchingIgnoresValue(opts, f, v);
      FirstPrefixIgnoresValue(m[|m| - 1].flags.value, f, v);
    }
    EqualsFormValue(m[0], f, v, next);
    StepOnStoredOptions(joined, next, s, processName);
  }

  /** The step for `f` followed by `v`: the first match fires with `f` and
      `v`, and `v` is skipped unless the run ended. */
  lemma LookaheadFormStep(f: string, v: string, s: Session, processName: string, opts: seq<CliOption>)
    requires s.command.WellFormed() && s.command.store == Some(opts)
    requires IsFlag(f)
    requires |Matching(opts, f)| > 0 && Matching(opts, f)[0].valueSignatures.Some?
    requires MatchedFlag(opts, f) == Some(f)
    ensures var fired := Invoke(Matching(opts, f)[0].callback, Some(f), Some(v), s, processName);
      Step(f, Some(v), s, processName) == StepResult(fired.0, fired.1, fired.1.None?)
  {
    assert !(f + "=" <= f);
    StepOnStoredOptions(f, Some(v), s, processName);
  }

  // ---------------------------------------------------------------------
  // Positional tokens

  /** The events a positional option tagged `tag` records for `tokens`. */
  function Deliveries(tag: string, tokens: seq<string>): (r: seq<Event>)
    ensures |r| == |tokens|
    ensures forall i :: 0 <= i < |tokens| ==> r[i] == Event(tag, None, Some(tokens[i]))
  {
    if |tokens| == 0 then [] else [Event(tag, None, Some(tokens[0]))] + Deliveries(tag, tokens[1..])
  }

  /** Every non-flag token fires the first positional option separately,
      with no flag and the token as value, in token order. */
  lemma {:induction false} PositionalsDeliveredInOrder(tokens: seq<string>, s: Session, processName: string, opts: seq<CliOption>, tag: string)
    requires s.command.WellFormed() && s.command.store == Some(opts)
    requires |Positionals(opts)| > 0 && Positionals(opts)[0].callback == Record(tag)
    requires forall i :: 0 <= i < |tokens| ==> !IsFlag(tokens[i])
    ensures ProcessTokens(tokens, false, s, processName)
         == Parse(s.(events := s.events + Deliveries(tag, tokens)), None)
    decreases |tokens|
  {
    if |tokens| == 0 {
      assert s.events + Deliveries(tag, tokens) == s.events;
    } else {
      var e := Event(tag, None, Some(tokens[0]));
      var s1 := s.(events := s.events + [e]);
      PositionalHead(tokens, s, processName, opts, tag);
      PositionalsDeliveredInOrder(tokens[1..], s1, processName, opts, tag);
      AppendRegroup(s.events, e, Deliveries(tag, tokens[1..]));
    }
  }

  /** The first of several non-flag tokens is delivered, and parsing goes on with the rest. */
  lemma PositionalHead(tokens: seq<string>, s: Session, processName: string, opts: seq<CliOption>, tag: string)
    requires s.command.WellFormed() && s.command.store == Some(opts)
    requires |Positionals(opts)| > 0 && Positionals(opts)[0].callback == Record(tag)
    requires |tokens| > 0 && !IsFlag(tokens[0])
    ensures ProcessTokens(tokens, false, s, processName)
         == ProcessTokens(tokens[1..], false, s.(events := s.events + [Event(tag, None, Some(tokens[0]))]), processName)
  {
    assert !IsStopMarker(tokens[0]);
    var next := if |tokens| > 1 then Some(tokens[1]) else None;
    PositionalStepRecords(tokens[0], next, s, processName, opts, tag);
    ProcessTokensUnfold(tokens, s, processName);
  }

  /** One non-flag token fires the positional option with no flag and the token as value. */
  lemma PositionalStepRecords(arg: string, next: Option<string>, s: Session, processName: string, opts: seq<CliOption>, tag: string)
    requires s.command.WellFormed() && s.command.store == Some(opts)
    requires |Positionals(opts)| > 0 && Positionals(opts)[0].callback == Record(tag)
    requires !IsFlag(arg)
    ensures Step(arg, next, s, processName) == StepResult(s.(events := s.events + [Event(tag, None, Some(arg))]), None, false)
  {
    StepOnStoredOptions(arg, next, s, processName);
  }

  /** Without a positional option, non-flag tokens are dropped. */
  lemma {:induction false} PositionalsDroppedWithoutReceiver(tokens: seq<string>, s: Session, processName: string, opts: seq<CliOption>)
    requires s.command.WellFormed() && s.command.store == Some(opts)
    requires |Positionals(opts)| == 0
    requires forall i :: 0 <= i < |tokens| ==> !IsFlag(tokens[i])
    ensures ProcessTokens(tokens, false, s, processName) == Parse(s, None)
    decreases |tokens|
  {
    if |tokens| > 0 {
      assert !IsStopMarker(tokens[0]);
      PositionalsDroppedWithoutReceiver(tokens[1..], s, processName, opts);
    }
  }

  // ---------------------------------------------------------------------
  // run

  /** An unknown command name ends the run with the "unknown command" error
      followed by the summary help; no closure fires and nothing executes. */
  lemma UnknownCommandNeverExecutes(cli: Cli)
    requires cli.WellFormed()
    requires cli.arguments.Some? && |cli.arguments.value| > 0
    requires forall c :: c in cli.commands ==> c.name != cli.arguments.value[0]
    ensures var name := cli.arguments.value[0];
      var message := UnknownCommandMessage(name);
      Run(cli) == Some(RunResult(
        Halted(Error(message)), [],
        [Writeln(Stderr, message)] + HelpExecute(cli.appName, cli.processName, cli.commands).1))
  {
  }

  /** A known command executes exactly when parsing ran to the end, and its
      output follows everything parsing wrote. */
  lemma KnownCommandExecutesAfterParsing(cli: Cli)
    requires cli.WellFormed()
    requires cli.arguments.Some? && |cli.arguments.value| > 0
    requires |Named(cli.commands, cli.arguments.value[0])| > 0
    ensures var args := cli.arguments.value;
      var command := Named(cli.commands, args[0])[0];
      var p := ProcessTokens(args[1..], false, Session(command, [], []), cli.processName);
      var r := Run(cli).value;
      && r.events == p.session.events
      && (r.outcome.Executed? <==> p.halted.None?)
      && (p.halted.Some? ==> r.outcome == Halted(p.halted.value) && r.out == p.session.out)
      && (p.halted.None? ==>
            && r.outcome.result == CliResult(Some(ResultCode(command.kind)), None, Some(p.session.command))
            && r.out == p.session.out + Execute(cli, p.session.command).1)
  {
  }
}

=== FILE: command.dfy ===
/** The `Command` protocol extension of ELCLI/Command.swift: the per-command
    option store, the three ways of adding an option, the two global options,
    and the per-command help text.

    The source keeps each command's option list in an associated-object side
    table. Here it is the field `store`: `None` until the list is first read,
    then `Some(list)`. The getter, `addGlobalCommandOptions` and `addOption`
    call each other exactly as in the source, so the first read returns the
    empty list it has just created while the store is left holding the two
    global options, and an `addOption` whose read is the first one stores
    only the new option. */
module Commands {
  import opened Wrappers
  import opened SeqFacts
  import opened Options
  import opened Output

  /** What `execute` does. The `execute` of a command of the embedding
      program is not modelled: it stands for one that writes nothing and
      returns the fixed `resultCode`, whatever parsing did. The two
      built-ins render text. */
  datatype Kind = UserCommand(resultCode: int) | HelpBuiltin | VersionBuiltin

  datatype Command = Command(
    name: string,
    helpDescription: string,
    failOnUnrecognizedOptions: bool,
    verbose: bool,
    quiet: bool,
    store: Option<seq<CliOption>>,
    kind: Kind)
  {
    /** Every stored option can be rendered by `showHelp`. */
    predicate WellFormed() {
      store.Some? ==> forall o :: o in store.value ==> o.Valid()
    }
  }

  /** Two commands agree on everything but their option store and verbose flag. */
  predicate SameIdentity(a: Command, b: Command) {
    && a.name == b.name
    && a.helpDescription == b.helpDescription
    && a.failOnUnrecognizedOptions == b.failOnUnrecognizedOptions
    && a.quiet == b.quiet
    && a.kind == b.kind
  }

  /** A command as its class initialiser leaves it: flags off, option store not yet created. */
  function NewCommand(name: string, helpDescription: string, failOnUnrecognizedOptions: bool, kind: Kind): (c: Command)
    ensures c.name == name && c.helpDescription == helpDescription
    ensures c.failOnUnrecognizedOptions == failOnUnrecognizedOptions && c.kind == kind
    ensures !c.verbose && !c.quiet && c.store.None?
    ensures c.WellFormed()
  {
    Command(name, helpDescription, failOnUnrecognizedOptions, false, false, None, kind)
  }

  /** The global `--help` option: shows the command's help, then exits successfully. */
  function HelpOption(): (o: CliOption) {
    FlagOption(Some(["--help"]), Some(""), ShowHelpAndExit)
  }

  /** The global `-v`/`--verbose` option: sets the command's verbose flag. */
  function VerboseOption(): (o: CliOption) {
    FlagOption(Some(["-v", "--verbose"]), Some(""), SetVerbose)
  }

  /** The option list a read of the store sees, before any lazy creation. */
  function Stored(c: Command): (opts: seq<CliOption>) {
    if c.store.Some? then c.store.value else []
  }

  function StoreRank(c: Command): (rank: nat) {
    if c.store.None? then 1 else 0
  }

  /** The `options` getter: returns the list read and the command afterwards.
      On the first read it creates an empty list, stores it, runs
      `addGlobalCommandOptions`, and returns the empty list it created. */
  function ReadOptions(c: Command): (r: (seq<CliOption>, Command))
    decreases StoreRank(c), 0
    ensures r.1.store.Some?
    ensures c.WellFormed() ==> r.1.WellFormed() && forall o :: o in r.0 ==> o.Valid()
    ensures c.store.Some? ==> r.0 == c.store.value && r.1 == c
    ensures c.store.None? ==> r.0 == [] && r.1 == c.(store := Some([HelpOption(), VerboseOption()]))
  {
    match c.store
    case Some(list) => (list, c)
    case None =>
      var created: seq<CliOption> := [];
      assert created + [HelpOption(), VerboseOption()] == [HelpOption(), VerboseOption()];
      (created, AddGlobalCommandOptions(c.(store := Some(created))))
  }

  /** `addGlobalCommandOptions`: appends `--help`, then `-v`/`--verbose`. */
  function AddGlobalCommandOptions(c: Command): (r: Command)
    requires c.store.Some?
    decreases 0, 2
    ensures r == c.(store := Some(c.store.value + [HelpOption(), VerboseOption()]))
  {
    var withHelp := AppendOption(c, HelpOption());
    assert c.store.value + [HelpOption()] + [VerboseOption()] == c.store.value + [HelpOption(), VerboseOption()];
    AppendOption(withHelp, VerboseOption())
  }

  /** The private `addOption(flags:usage:valueSignatures:closure:)`: reads
      the list through the getter, appends one option, and stores the
      result, replacing whatever the read itself stored. */
  function AppendOption(c: Command, o: CliOption): (r: Command)
    decreases StoreRank(c), 1
    ensures r == c.(store := Some(Stored(c) + [o]))
  {
    var (list, _) := ReadOptions(c);
    c.(store := Some(list + [o]))
  }

  /** `addOption(flags, usage, closure)`: a flag option that takes no value. */
  function AddOption(c: Command, flags: seq<string>, usage: string, tag: string): (r: Command)
    ensures SameIdentity(r, c) && r.verbose == c.verbose
    ensures r.store == Some(Stored(c) + [CliOption(Some(flags), Some(usage), None, Record(tag))])
    ensures c.WellFormed() ==> r.WellFormed()
  {
    AppendOption(c, FlagOption(Some(flags), Some(usage), Record(tag)))
  }

  /** `addOptionValue`: a flag option with exactly one value placeholder. */
  function AddOptionValue(c: Command, flags: seq<string>, usage: string, valueSignature: string, tag: string): (r: Command)
    ensures SameIdentity(r, c) && r.verbose == c.verbose
    ensures r.store == Some(Stored(c) + [CliOption(Some(flags), Some(usage), Some([valueSignature]), Record(tag))])
    ensures c.WellFormed() ==> r.WellFormed()
  {
    AppendOption(c, CliOption(Some(flags), Some(usage), Some([valueSignature]), Record(tag)))
  }

  /** `addFlaglessOptionValues`: an option for positional tokens, without flags or usage. */
  function AddFlaglessOptionValues(c: Command, valueSignatures: seq<string>, tag: string): (r: Command)
    ensures SameIdentity(r, c) && r.verbose == c.verbose
    ensures r.store == Some(Stored(c) + [CliOption(None, None, Some(valueSignatures), Record(tag))])
    ensures c.WellFormed() ==> r.WellFormed()
  {
    AppendOption(c, PositionalOption(Some(valueSignatures), Record(tag)))
  }

  /** A `configureOptions` that adds the given options one after another. */
  function ConfigureOptions(c: Command, opts: seq<CliOption>): (r: Command)
    decreases |opts|
  {
    if |opts| == 0 then c else ConfigureOptions(AppendOption(c, opts[0]), opts[1..])
  }

  /** The usage placeholders `showHelp` lists: those of the first positional option. */
  function UsagePlaceholders(opts: seq<CliOption>): (sigs: seq<string>)
    ensures |Positionals(opts)| == 0 ==> sigs == []
    ensures |Positionals(opts)| > 0 ==> sigs == Positionals(opts)[0].valueSignatures.value
  {
    var flagless := Positionals(opts);
    if |flagless| > 0 then
      assert flagless[0] in flagless;
      flagless[0].valueSignatures.value
    else []
  }

  /** One standard-output write per placeholder, each followed by a blank. */
  function PlaceholderChunks(sigs: seq<string>): (r: seq<Chunk>)
    ensures |r| == |sigs|
  {
    if |sigs| == 0 then [] else [Write(Stdout, sigs[0] + " ")] + PlaceholderChunks(sigs[1..])
  }

  /** Placeholder `k` is written as itself followed by a blank, in declaration order. */
  lemma {:induction false} PlaceholderChunksContent(sigs: seq<string>)
    ensures forall k :: 0 <= k < |sigs| ==> PlaceholderChunks(sigs)[k] == Chunk(Stdout, sigs[k] + " ")
  {
    if |sigs| > 0 {
      PlaceholderChunksContent(sigs[1..]);
      var r := PlaceholderChunks(sigs);
      assert r == [Chunk(Stdout, sigs[0] + " ")] + PlaceholderChunks(sigs[1..]);
      assert forall k :: 0 < k < |sigs| ==> r[k] == PlaceholderChunks(sigs[1..])[k - 1];
    }
  }

  /** `printOption` applied to each option in turn: one line for each
      printable option, and nothing for the others. */
  function PrintOptions(opts: seq<CliOption>): (r: seq<Chunk>)
    requires forall o :: o in opts ==> o.Valid()
    ensures |r| == |PrintableOptions(opts)|
  {
    if |opts| == 0 then [] else PrintOption(opts[0]) + PrintOptions(opts[1..])
  }

  /** The options `printOption` renders a line for, in declaration order. */
  function PrintableOptions(opts: seq<CliOption>): (r: seq<CliOption>)
    ensures |r| <= |opts|
    ensures forall i :: 0 <= i < |r| ==> r[i] in opts && Printable(r[i])
  {
    if |opts| == 0 then []
    else (if Printable(opts[0]) then [opts[0]] else []) + PrintableOptions(opts[1..])
  }

  /** No printable option is skipped. */
  lemma {:induction false} PrintableComplete(opts: seq<CliOption>)
    ensures forall o :: o in opts && Printable(o) ==> o in PrintableOptions(opts)
  {
    if |opts| > 0 {
      PrintableComplete(opts[1..]);
      assert forall o :: o in opts ==> o == opts[0] || o in opts[1..];
    }
  }

  /** Line `i` that `PrintOptions` writes is the option line of the `i`-th
      printable option: the lines come in declaration order. */
  lemma {:induction false} PrintOptionsLine(opts: seq<CliOption>, i: int)
    requires forall o :: o in opts ==> o.Valid()
    requires 0 <= i < |PrintableOptions(opts)|
    ensures PrintableOptions(opts)[i].Valid()
    ensures PrintOptions(opts)[i] == Writeln(Stdout, OptionLine(PrintableOptions(opts)[i]))
  {
    var rest := opts[1..];
    assert forall o :: o in rest ==> o in opts;
    assert opts[0] in opts;
    if Printable(opts[0]) {
      var line := Writeln(Stdout, OptionLine(opts[0]));
      ConsAt(PrintableOptions(opts), opts[0], PrintableOptions(rest), i);
      ConsAt(PrintOptions(opts), line, PrintOptions(rest), i);
      if i > 0 {
        PrintOptionsLine(rest, i - 1);
      }
    } else {
      SameAt(PrintableOptions(opts), PrintableOptions(rest), i);
      SameAt(PrintOptions(opts), PrintOptions(rest), i);
      PrintOptionsLine(rest, i);
    }
  }

  /** Dropping the flagless options first does not change which options print. */
  lemma {:induction false} PrintableAmongFlagBearing(opts: seq<CliOption>)
    ensures PrintableOptions(FlagBearing(opts)) == PrintableOptions(opts)
  {
    if |opts| > 0 {
      PrintableAmongFlagBearing(opts[1..]);
      var head := if opts[0].flags.Some? then [opts[0]] else [];
      assert FlagBearing(opts) == head + FlagBearing(opts[1..]);
      PrintableOfConcat(head, FlagBearing(opts[1..]));
    }
  }

  lemma {:induction false} PrintableOfConcat(a: seq<CliOption>, b: seq<CliOption>)
    ensures PrintableOptions(a + b) == PrintableOptions(a) + PrintableOptions(b)
  {
    if |a| > 0 {
      assert (a + b)[1..] == a[1..] + b;
      PrintableOfConcat(a[1..], b);
    } else {
      assert a + b == b;
    }
  }

  /** The flag-bearing options of valid options are valid. */
  lemma FlagBearingValid(opts: seq<CliOption>)
    requires forall o :: o in opts ==> o.Valid()
    ensures forall o :: o in FlagBearing(opts) ==> o.Valid()
  {
    var flagOptions := FlagBearing(opts);
    forall o | o in flagOptions ensures o.Valid() {
      var i :| 0 <= i < |flagOptions| && flagOptions[i] == o;
    }
  }

  /** The usage header `showHelp` writes before looking at the options. */
  function UsageHeader(processName: string, name: string): (out: seq<Chunk>) {
    [Write(Stdout, "usage: "), Write(Stdout, processName + " "), Write(Stdout, name + " [options] ")]
  }

  /** The usage line: header, positional placeholders, then a blank line. */
  function UsageLine(processName: string, name: string, sigs: seq<string>): (head: seq<Chunk>)
    ensures |head| == 4 + |sigs|
  {
    UsageHeader(processName, name) + PlaceholderChunks(sigs) + [Writeln(Stdout, "\n")]
  }

  /** The usage line reads "usage: ", the process name, the command name
      with " [options] ", each placeholder followed by a blank, and a blank line. */
  lemma UsageLineLayout(processName: string, name: string, sigs: seq<string>)
    ensures var head := UsageLine(processName, name, sigs);
      && head[0] == Chunk(Stdout, "usage: ")
      && head[1] == Chunk(Stdout, processName + " ")
      && head[2] == Chunk(Stdout, name + " [options] ")
      && (forall k :: 0 <= k < |sigs| ==> head[3 + k] == Chunk(Stdout, sigs[k] + " "))
      && head[3 + |sigs|] == Chunk(Stdout, "\n\n")
  {
    var chunks := PlaceholderChunks(sigs);
    PlaceholderChunksContent(sigs);
    var head := UsageLine(processName, name, sigs);
    forall k | 0 <= k < |sigs| ensures head[3 + k] == Chunk(Stdout, sigs[k] + " ") {
      MiddleAt(head, UsageHeader(processName, name), chunks, [Writeln(Stdout, "\n")], k);
    }
  }

  /** The text `showHelp` writes for a command named `name` whose option
      read returned `opts`: the usage line with the positional placeholders,
      a blank line, the lines `printOption` writes for the flag-bearing
      options, and an empty line. */
  function HelpText(processName: string, name: string, opts: seq<CliOption>): (out: seq<Chunk>)
    requires forall o :: o in opts ==> o.Valid()
    ensures |out| == 5 + |UsagePlaceholders(opts)| + |PrintableOptions(opts)|
  {
    var flagOptions := FlagBearing(opts);
    PrintableAmongFlagBearing(opts);
    UsageLine(processName, name, UsagePlaceholders(opts)) + PrintOptions(flagOptions) + [Writeln(Stdout, "")]
  }

  /** The help text opens with the usage line (header, placeholders of the
      first positional option, blank line) and closes with an empty line. */
  lemma HelpTextFrame(processName: string, name: string, opts: seq<CliOption>)
    requires forall o :: o in opts ==> o.Valid()
    ensures var sigs := UsagePlaceholders(opts);
      var out := HelpText(processName, name, opts);
      && out[..4 + |sigs|] == UsageLine(processName, name, sigs)
      && out[|out| - 1] == Chunk(Stdout, "\n")
  {
  }

  /** The facts that connect the option lines of the help text to the
      printable options. */
  lemma HelpTextParts(processName: string, name: string, opts: seq<CliOption>)
    requires forall o :: o in opts ==> o.Valid()
    ensures forall o :: o in FlagBearing(opts) ==> o.Valid()
    ensures PrintableOptions(FlagBearing(opts)) == PrintableOptions(opts)
  {
    FlagBearingValid(opts);
    PrintableAmongFlagBearing(opts);
  }

  /** Between the two, the help text has one option line per printable
      option, in declaration order. */
  lemma {:induction false} HelpTextListsPrintableOptions(processName: string, name: string, opts: seq<CliOption>)
    requires forall o :: o in opts ==> o.Valid()
    ensures var sigs := UsagePlaceholders(opts);
      var out := HelpText(processName, name, opts);
      var lines := PrintableOptions(opts);
      forall i :: 0 <= i < |lines| ==>
        lines[i].Valid() && out[4 + |sigs| + i] == Writeln(Stdout, OptionLine(lines[i]))
  {
    var lines := PrintableOptions(opts);
    forall i | 0 <= i < |lines|
      ensures lines[i].Valid()
      ensures HelpText(processName, name, opts)[4 + |UsagePlaceholders(opts)| + i] == Writeln(Stdout, OptionLine(lines[i]))
    {
      HelpTextLine(processName, name, opts, i);
    }
  }

  /** Line `i` after the usage line is the line of the `i`-th printable option. */
  lemma HelpTextLine(processName: string, name: string, opts: seq<CliOption>, i: int)
    requires forall o :: o in opts ==> o.Valid()
    requires 0 <= i < |PrintableOptions(opts)|
    ensures PrintableOptions(opts)[i].Valid()
    ensures HelpText(processName, name, opts)[4 + |UsagePlaceholders(opts)| + i]
         == Writeln(Stdout, OptionLine(PrintableOptions(opts)[i]))
  {
    var sigs, out := UsagePlaceholders(opts), HelpText(processName, name, opts);
    var flagOptions := FlagBearing(opts);
    HelpTextParts(processName, name, opts);
    SameAt(PrintableOptions(opts), PrintableOptions(flagOptions), i);
    PrintOptionsLine(flagOptions, i);
    MiddleAt(out, UsageLine(processName, name, sigs), PrintOptions(flagOptions), [Writeln(Stdout, "")], i);
  }

  /** `showHelp`: renders the help text for the list the getter returns.
      On a command whose store does not exist yet that list is empty, so no
      option line is written, and the store is created as a side effect. */
  function ShowHelp(c: Command, processName: string): (r: (seq<Chunk>, Command))
    requires c.WellFormed()
    ensures r.0 == HelpText(processName, c.name, Stored(c))
    ensures r.1 == ReadOptions(c).1 && r.1.WellFormed()
  {
    var (opts, c1) := ReadOptions(c);
    (HelpText(processName, c.name, opts), c1)
  }
}

=== FILE: command_properties.dfy ===
/** Properties of the lazily created option store of ELCLI/Command.swift:
    when the two global options appear in it, when they are lost, and how
    the help text a command renders depends on whether its store exists. */
module CommandProperties {
  import opened Wrappers
  import opened SeqFacts
  import opened Options
  import opened Output
  import opened Commands

  /** The global options are injected exactly once: the first read stores
      them, and every later read returns that same list and changes nothing. */
  lemma GlobalsInjectedOnce(c: Command)
    ensures var (first, c1) := ReadOptions(c);
      var (second, c2) := ReadOptions(c1);
      && c2 == c1
      && (c.store.None? ==> first == [] && second == [HelpOption(), VerboseOption()])
      && (c.store.Some? ==> second == first)
  {
  }

  /** A `configureOptions` that adds options in turn leaves exactly those
      options, in order, after whatever the store held. On a command whose
      store did not exist yet the global options are therefore lost: the
      first addition reads (and so creates) the store, then overwrites it. */
  lemma {:induction false} ConfigureOptionsStore(c: Command, opts: seq<CliOption>)
    ensures var r := ConfigureOptions(c, opts);
      && SameIdentity(r, c) && r.verbose == c.verbose
      && r.store == (if c.store.None? && |opts| == 0 then None else Some(Stored(c) + opts))
    decreases |opts|
  {
    if |opts| > 0 {
      var c1 := AppendOption(c, opts[0]);
      ConfigureOptionsStore(c1, opts[1..]);
      AppendRegroup(Stored(c), opts[0], opts[1..]);
      ConsSplit(opts);
      assert Stored(c1) == Stored(c) + [opts[0]];
      assert ConfigureOptions(c, opts) == ConfigureOptions(c1, opts[1..]);
      if |opts| == 1 {
        assert Stored(c) + [opts[0]] == Stored(c) + opts;
      }
    } else {
      assert Stored(c) + opts == Stored(c);
    }
  }

  /** A fresh command that declares options never holds the global ones
      unless it declares them itself. */
  lemma FreshCommandLosesGlobals(c: Command, opts: seq<CliOption>)
    requires c.store.None? && |opts| > 0
    ensures ConfigureOptions(c, opts).store == Some(opts)
    ensures HelpOption() !in opts ==> HelpOption() !in ConfigureOptions(c, opts).store.value
  {
    ConfigureOptionsStore(c, opts);
    assert Stored(c) + opts == opts;
  }

  /** Rendering help a second time changes nothing further: the first call
      has created the store if it was missing. When the store already
      existed both renderings are the same. */
  lemma ShowHelpSettles(c: Command, processName: string)
    requires c.WellFormed()
    ensures var (out1, c1) := ShowHelp(c, processName);
      var (out2, c2) := ShowHelp(c1, processName);
      && c2 == c1
      && (c.store.Some? ==> out2 == out1)
      && (c.store.None? ==>
            && out1 == HelpText(processName, c.name, [])
            && out2 == HelpText(processName, c.name, [HelpOption(), VerboseOption()]))
  {
  }

  /** On a command whose store does not exist yet, the first help text lists
      no option at all, while the second lists `--help` and `-v, --verbose`. */
  lemma FreshHelpOmitsGlobals(c: Command, processName: string)
    requires c.WellFormed() && c.store.None?
    ensures var (out1, c1) := ShowHelp(c, processName);
      var (out2, _) := ShowHelp(c1, processName);
      |out1| == 5 && |out2| == 7
  {
    var globals := [HelpOption(), VerboseOption()];
    assert Printable(HelpOption()) && Printable(VerboseOption());
    assert globals[1..] == [VerboseOption()];
    assert |PrintableOptions(globals)| == 2;
    assert Positionals(globals) == [];
  }

}

=== FILE: options.dfy ===
/** The `Option` record of the toolkit (THGCLI/Options.swift): one flag or
    positional-value declaration together with the closure it triggers.
    The record is immutable; its full initialiser is the datatype constructor. */
module Options {
  import opened Wrappers

  /** What an option's closure does when it fires. Closures written by the
      embedding program are opaque here: each is named by a tag and its
      invocations are recorded in a trace. The two closures the toolkit
      itself installs have known effects. */
  datatype Callback =
    | Record(tag: string)
    | ShowHelpAndExit
    | SetVerbose

  datatype CliOption = CliOption(
    flags: Option<seq<string>>,
    usage: Option<string>,
    valueSignatures: Option<seq<string>>,
    callback: Callback)
  {
    /** A flagless option that declares value placeholders: it receives
        the positional tokens. */
    predicate IsPositional() {
      flags.None? && valueSignatures.Some?
    }

    /** An option that help rendering can print without trapping: the
        renderer force-unwraps `usage` of every flag-bearing option. */
    predicate Valid() {
      flags.Some? ==> usage.Some?
    }
  }

  /** `init(flags:usage:closure:)`: an option that never takes a value. */
  function FlagOption(flags: Option<seq<string>>, usage: Option<string>, callback: Callback): (o: CliOption)
    ensures o.valueSignatures.None?
    ensures o.flags == flags && o.usage == usage && o.callback == callback
    ensures !o.IsPositional()
  {
    CliOption(flags, usage, None, callback)
  }

  /** `init(valueSignatures:closure:)`: a flagless option with no usage text. */
  function PositionalOption(valueSignatures: Option<seq<string>>, callback: Callback): (o: CliOption)
    ensures o.flags.None? && o.usage.None?
    ensures o.valueSignatures == valueSignatures && o.callback == callback
    ensures o.Valid()
    ensures o.IsPositional() <==> valueSignatures.Some?
  {
    CliOption(None, None, valueSignatures, callback)
  }

  /** The flagless options that receive positional tokens, in declaration order. */
  function Positionals(opts: seq<CliOption>): (r: seq<CliOption>)
    ensures |r| <= |opts|
    ensures forall i :: 0 <= i < |r| ==> r[i] in opts && r[i].IsPositional()
  {
    if |opts| == 0 then []
    else (if opts[0].IsPositional() then [opts[0]] else []) + Positionals(opts[1..])
  }

  /** The options that declare flags, in declaration order. */
  function FlagBearing(opts: seq<CliOption>): (r: seq<CliOption>)
    ensures |r| <= |opts|
    ensures forall i :: 0 <= i < |r| ==> r[i] in opts && r[i].flags.Some?
  {
    if |opts| == 0 then []
    else (if opts[0].flags.Some? then [opts[0]] else []) + FlagBearing(opts[1..])
  }

  /** `Positionals` keeps declaration order: filtering a concatenation is
      concatenating the filtered parts. */
  lemma {:induction false} PositionalsOfConcat(a: seq<CliOption>, b: seq<CliOption>)
    ensures Positionals(a + b) == Positionals(a) + Positionals(b)
  {
    if |a| > 0 {
      assert (a + b)[1..] == a[1..] + b;
      PositionalsOfConcat(a[1..], b);
    } else {
      assert a + b == b;
    }
  }

  /** The option that receives positional tokens is the first declared
      positional one. */
  lemma {:induction false} FirstPositional(opts: seq<CliOption>, k: int)
    requires 0 <= k < |opts| && opts[k].IsPositional()
    requires forall j :: 0 <= j < k ==> !opts[j].IsPositional()
    ensures |Positionals(opts)| > 0 && Positionals(opts)[0] == opts[k]
  {
    if k > 0 {
      assert forall j :: 0 <= j < k - 1 ==> opts[1..][j] == opts[j + 1];
      FirstPositional(opts[1..], k - 1);
    }
  }

  /** `FlagBearing` keeps declaration order. */
  lemma {:induction false} FlagBearingOfConcat(a: seq<CliOption>, b: seq<CliOption>)
    ensures FlagBearing(a + b) == FlagBearing(a) + FlagBearing(b)
  {
    if |a| > 0 {
      assert (a + b)[1..] == a[1..] + b;
      FlagBearingOfConcat(a[1..], b);
    } else {
      assert a + b == b;
    }
  }

  /** No positional option is missed: an empty `Positionals` means none was declared. */
  lemma {:induction false} PositionalsComplete(opts: seq<CliOption>)
    ensures forall o :: o in opts && o.IsPositional() ==> o in Positionals(opts)
  {
    if |opts| > 0 {
      PositionalsComplete(opts[1..]);
      assert forall o :: o in opts ==> o == opts[0] || o in opts[1..];
    }
  }

  /** No flag-bearing option is missed. */
  lemma {:induction false} FlagBearingComplete(opts: seq<CliOption>)
    ensures forall o :: o in opts && o.flags.Some? ==> o in FlagBearing(opts)
  {
    if |opts| > 0 {
      FlagBearingComplete(opts[1..]);
      assert forall o :: o in opts ==> o == opts[0] || o in opts[1..];
    }
  }
}

=== FILE: output.dfy ===
/** Text output and process termination (THGCLI/Output.swift). Output is not
    performed: every write becomes a `Chunk` appended to a log, and the two
    ways of ending the process become `Status` values. */
module Output {
  import opened Wrappers
  import opened Options

  /** The three standard streams of the source's `Output` enumeration. */
  datatype Stream = Stdin | Stdout | Stderr

  /** One `write` call: the stream and the exact text that reaches it. */
  datatype Chunk = Chunk(stream: Stream, text: string)

  const ErrorPrefix: string := "error: "

  /** How a run ended when it did not return from `execute`:
      `exit(message)` (status 1), `exitSuccess()` (status 0), or a runtime
      trap of the Swift program. */
  datatype Status = Error(message: string) | SuccessExit | Trap(reason: string)

  /** The process exit status a terminal outcome stands for; a trap has none. */
  function ExitCode(s: Status): (code: Option<int>) {
    match s
    case Error(_) => Some(1)
    case SuccessExit => Some(0)
    case Trap(_) => None
  }

  /** `write`: standard error gets the "error: " prefix, other streams the text as is. */
  function Write(stream: Stream, data: string): (c: Chunk)
  {
    if stream == Stderr then Chunk(stream, ErrorPrefix + data) else Chunk(stream, data)
  }

  /** `writeln`: a `write` of the data followed by a newline. */
  function Writeln(stream: Stream, data: string): (c: Chunk)
  {
    Write(stream, data + "\n")
  }

  /** A write reaches the stream it names; only standard error gets the
      "error: " prefix, and `writeln` adds the newline after that text. */
  lemma WriteLayout(stream: Stream, data: string)
    ensures Write(stream, data).stream == stream && Writeln(stream, data).stream == stream
    ensures Write(stream, data).text == if stream == Stderr then ErrorPrefix + data else data
    ensures Writeln(stream, data).text == Write(stream, data).text + "\n"
  {
    if stream == Stderr {
      assert ErrorPrefix + (data + "\n") == ErrorPrefix + data + "\n";
    }
  }

  /** `exit(data, closure)`: the message goes to standard error before the
      closure's output, and the run ends with status 1. */
  function Exit(data: string, closureOutput: seq<Chunk>): (r: (seq<Chunk>, Status))
    ensures |r.0| == 1 + |closureOutput| && r.0[1..] == closureOutput
    ensures r.0[0].stream == Stderr && r.0[0].text == ErrorPrefix + data + "\n"
    ensures r.1 == Error(data) && ExitCode(r.1) == Some(1)
  {
    ([Writeln(Stderr, data)] + closureOutput, Error(data))
  }

  /** `exitSuccess()`: ends the run with status 0 and writes nothing. */
  function ExitSuccess(): (s: Status)
    ensures ExitCode(s) == Some(0)
  {
    SuccessExit
  }

  function Max(a: int, b: int): (m: int) {
    if a < b then b else a
  }

  /** A string of `n` blanks. */
  function Spaces(n: nat): (r: string)
    ensures |r| == n
    ensures forall i :: 0 <= i < n ==> r[i] == ' '
  {
    if n == 0 then "" else Spaces(n - 1) + " "
  }

  /** `padFront`: blanks in front of `s` up to `maxLength` characters; `s` is never cut. */
  function PadFront(s: string, maxLength: int): (r: string)
    ensures |r| == Max(maxLength, |s|)
    ensures r[|r| - |s|..] == s
    ensures forall i :: 0 <= i < |r| - |s| ==> r[i] == ' '
  {
    if maxLength > |s| then Spaces(maxLength - |s|) + s else s
  }

  /** `padBack`: blanks after `s` up to `maxLength` characters; `s` is never cut. */
  function PadBack(s: string, maxLength: int): (r: string)
    ensures |r| == Max(maxLength, |s|)
    ensures r[..|s|] == s
    ensures forall i :: |s| <= i < |r| ==> r[i] == ' '
  {
    if maxLength > |s| then s + Spaces(maxLength - |s|) else s
  }

  /** The declared flags separated by ", ", as `printOption` builds them. */
  function JoinFlags(flags: seq<string>): (r: string)
    ensures |flags| == 0 ==> r == ""
    ensures |flags| == 1 ==> r == flags[0]
    ensures |flags| > 0 ==> flags[0] <= r
    ensures |flags| > 0 ==> |r| == TotalLength(flags) + 2 * (|flags| - 1)
  {
    if |flags| == 0 then ""
    else if |flags| == 1 then flags[0]
    else JoinFlags(flags[..|flags| - 1]) + ", " + flags[|flags| - 1]
  }

  /** Joining from the front: the first flag, ", ", then the others joined
      the same way. With the one-flag case this fixes every separator and
      every flag of the join. */
  lemma {:induction false} JoinFlagsCons(f: string, rest: seq<string>)
    requires |rest| > 0
    ensures JoinFlags([f] + rest) == f + ", " + JoinFlags(rest)
    decreases |rest|
  {
    var flags := [f] + rest;
    var last := rest[|rest| - 1];
    assert flags[..|flags| - 1] == [f] + rest[..|rest| - 1];
    assert flags[|flags| - 1] == last;
    if |rest| == 1 {
      assert JoinFlags([f]) == f;
    } else {
      var front := rest[..|rest| - 1];
      JoinFlagsCons(f, front);
      assert JoinFlags(rest) == JoinFlags(front) + ", " + last;
      assert f + ", " + JoinFlags(front) + ", " + last == f + ", " + (JoinFlags(front) + ", " + last);
    }
  }

  /** The summed lengths of some strings. */
  function TotalLength(xs: seq<string>): (n: nat) {
    if |xs| == 0 then 0 else TotalLength(xs[..|xs| - 1]) + |xs[|xs| - 1]|
  }

  /** An option `printOption` renders: it has flags and at most one value placeholder. */
  predicate Printable(o: CliOption) {
    o.flags.Some? && !(o.valueSignatures.Some? && |o.valueSignatures.value| > 1)
  }

  /** The left column of an option line before padding: five blanks, the
      joined flags, then the first value placeholder if there is one. */
  function FlagColumn(o: CliOption): (column: string)
    requires o.flags.Some?
  {
    var sig := if o.valueSignatures.Some? && |o.valueSignatures.value| > 0
               then " " + o.valueSignatures.value[0] else "";
    "     " + JoinFlags(o.flags.value) + sig
  }

  /** The flag column is five blanks, the joined flags, and then a blank and
      the first value placeholder when the option declares one. */
  lemma FlagColumnLayout(o: CliOption)
    requires o.flags.Some?
    ensures var column, joined := FlagColumn(o), JoinFlags(o.flags.value);
      && column[..5] == "     "
      && column[5..5 + |joined|] == joined
      && (o.valueSignatures.Some? && |o.valueSignatures.value| > 0 ==>
            column[5 + |joined|..] == " " + o.valueSignatures.value[0])
      && (o.valueSignatures.None? || |o.valueSignatures.value| == 0 ==> |column| == 5 + |joined|)
  {
  }

  /** The width of the flag column in an option line. */
  const FlagColumnWidth: nat := 26

  /** The text of one option line, without its newline. */
  function OptionLine(o: CliOption): (line: string)
    requires o.flags.Some? && o.usage.Some?
  {
    var flagData := PadBack(FlagColumn(o), FlagColumnWidth);
    var usageData := o.usage.value;
    if |flagData| > FlagColumnWidth then
      flagData + "\n" + PadFront(usageData, FlagColumnWidth + 1 + |usageData|)
    else
      flagData + " " + usageData
  }

  /** An option line keeps the whole flag column and puts the usage text in
      column 27: on the same line when the flag column fits in 26
      characters, otherwise on a second line indented by 27 blanks. */
  lemma OptionLineLayout(o: CliOption)
    requires o.flags.Some? && o.usage.Some?
    ensures var line, column, usage := OptionLine(o), FlagColumn(o), o.usage.value;
      && line[..|column|] == column
      && (|column| <= FlagColumnWidth ==>
            && |line| == FlagColumnWidth + 1 + |usage|
            && (forall i :: |column| <= i < FlagColumnWidth + 1 ==> line[i] == ' ')
            && line[FlagColumnWidth + 1..] == usage)
      && (|column| > FlagColumnWidth ==>
            && |line| == |column| + 1 + FlagColumnWidth + 1 + |usage|
            && line[|column|] == '\n'
            && (forall i :: |column| < i <= |column| + FlagColumnWidth + 1 ==> line[i] == ' ')
            && line[|column| + 1 + FlagColumnWidth + 1..] == usage)
  {
    var column, usage := FlagColumn(o), o.usage.value;
    var flagData := PadBack(column, FlagColumnWidth);
    var line := OptionLine(o);
    if |column| <= FlagColumnWidth {
      assert line == flagData + " " + usage;
      assert line[..|column|] == flagData[..|column|];
      assert line[FlagColumnWidth + 1..] == usage;
    } else {
      var indented := PadFront(usage, FlagColumnWidth + 1 + |usage|);
      assert flagData == column;
      assert line == column + "\n" + indented;
      assert line[..|column|] == column;
      assert line[|column| + 1..] == indented;
      assert line[|column| + 1 + FlagColumnWidth + 1..] == indented[FlagColumnWidth + 1..];
    }
  }

  /** `printOption`: one standard-output line for a printable option, nothing otherwise. */
  function PrintOption(o: CliOption): (r: seq<Chunk>)
    requires o.Valid()
    ensures !Printable(o) ==> r == []
    ensures Printable(o) ==> |r| == 1 && r[0].stream == Stdout && r[0].text == OptionLine(o) + "\n"
  {
    if o.flags.None? || (o.valueSignatures.Some? && |o.valueSignatures.value| > 1) then []
    else [Writeln(Stdout, OptionLine(o))]
  }

  /** The width the command name is padded to in a summary line. */
  const CommandColumnWidth: nat := 14

  /** The text of a summary line, without its newline. */
  function CommandLine(name: string, helpDescription: string): (line: string) {
    "   " + PadBack(name, CommandColumnWidth) + " " + helpDescription
  }

  /** A summary line holds three blanks, the name padded with blanks to 14
      characters, a blank, and the description. A longer name is not cut:
      it pushes the description to the right. */
  lemma CommandLineLayout(name: string, helpDescription: string)
    ensures var line := CommandLine(name, helpDescription);
      var width := Max(CommandColumnWidth, |name|);
      && |line| == 3 + width + 1 + |helpDescription|
      && line[..3] == "   "
      && line[3..3 + |name|] == name
      && (forall i :: 3 + |name| <= i < 3 + width + 1 ==> line[i] == ' ')
      && line[3 + width + 1..] == helpDescription
  {
    var padded := PadBack(name, CommandColumnWidth);
    var line := CommandLine(name, helpDescription);
    assert line == "   " + padded + " " + helpDescription;
    assert line[3..3 + |padded|] == padded;
    assert padded[..|name|] == name;
    assert line[3 + |padded| + 1..] == helpDescription;
  }

  /** `printCommand`: nothing for a name starting with "-", otherwise one
      standard-output line. */
  function PrintCommand(name: string, helpDescription: string): (r: seq<Chunk>)
    ensures r == [] <==> "-" <= name
    ensures !("-" <= name) ==>
      |r| == 1 && r[0].stream == Stdout && r[0].text == CommandLine(name, helpDescription) + "\n"
  {
    if "-" <= name then [] else [Writeln(Stdout, CommandLine(name, helpDescription))]
  }
}

=== FILE: scenarios.dfy ===
/** Whole runs of a freshly initialised dispatcher on the command lines of
    THGCLITests/THGCLITests.swift that name a built-in command, with the
    test's own commands registered after the built-ins. */
module Scenarios {
  import opened Wrappers
  import opened SeqFacts
  import opened Output
  import opened Commands
  import opened BuiltIns
  import opened Cli
  import opened CliProperties

  /** `execute` of the version command on a dispatcher made by `init`
      prints the version twice: once as the version and once in place of
      the description, which `init` does not keep. */
  lemma VersionLineRepeatsVersion(name: string, version: string, description: string, processName: string, argv: seq<string>)
    requires |argv| >= 1
    ensures Execute(NewCli(name, version, description, processName, argv), VersionCommand())
         == (0, [Chunk(Stdout, name + " version " + version + ", " + version + "\n")])
  {
  }

  /** A command line that is only a known command name executes that
      command with nothing parsed: its output is all the run writes. */
  lemma CommandNameAloneExecutes(cli: Cli, name: string)
    requires cli.WellFormed() && cli.arguments == Some([name])
    requires |Named(cli.commands, name)| > 0
    ensures var command, r := Named(cli.commands, name)[0], Run(cli);
      && r.Some?
      && r.value.outcome.Executed?
      && r.value.outcome.result.resultCode == Some(ResultCode(command.kind))
      && r.value.events == []
      && r.value.out == Execute(cli, command).1
  {
    var command := Named(cli.commands, name)[0];
    var s := Session(command, [], []);
    assert [name][1..] == [];
    assert ProcessTokens([], false, s, cli.processName) == Parse(s, None);
    KnownCommandExecutesAfterParsing(cli);
    DropEmptyMiddle([], [], Execute(cli, command).1);
  }

  /** The command line `--version` after further commands were registered:
      the run ends with result code 0 and the single version line. The
      built-ins are registered first, so a later command of the same name
      would not be reached. */
  lemma ShowVersion(name: string, version: string, description: string, processName: string, executable: string, commands: seq<Command>)
    requires forall c :: c in commands ==> c.WellFormed()
    ensures var r := Run(AddCommands(NewCli(name, version, description, processName, [executable, "--version"]), commands));
      && r.Some?
      && r.value.outcome.Executed?
      && r.value.outcome.result.resultCode == Some(0)
      && r.value.events == []
      && r.value.out == [Chunk(Stdout, name + " version " + version + ", " + version + "\n")]
  {
    var cli := AddCommands(NewCli(name, version, description, processName, [executable, "--version"]), commands);
    assert [executable, "--version"][1..] == ["--version"];
    FirstNamed(cli.commands, "--version", 0);
    CommandNameAloneExecutes(cli, "--version");
  }

  /** The command line `--help` after further commands were registered: the
      summary lists those of them whose name does not start with "-", in
      registration order, and none of the built-ins. */
  lemma ShowSummaryHelp(name: string, version: string, description: string, processName: string, executable: string, commands: seq<Command>)
    requires forall c :: c in commands ==> c.WellFormed()
    ensures var r := Run(AddCommands(NewCli(name, version, description, processName, [executable, "--help"]), commands));
      && r.Some?
      && r.value.outcome.Executed?
      && r.value.outcome.result.resultCode == Some(0)
      && r.value.events == []
      && r.value.out == SummaryHeader(processName, name) + PrintCommands(commands) + [Chunk(Stdout, "\n")]
  {
    var cli := AddCommands(NewCli(name, version, description, processName, [executable, "--help"]), commands);
    assert [executable, "--help"][1..] == ["--help"];
    assert VersionCommandName != HelpCommandName by { assert VersionCommandName[2] != HelpCommandName[2]; }
    FirstNamed(cli.commands, "--help", 1);
    CommandNameAloneExecutes(cli, "--help");
    SummaryAfterBuiltins(name, processName, commands);
  }

  /** The summary help of a dispatcher whose built-ins precede `commands`:
      the header, the lines of `commands`, and the closing empty line. */
  lemma SummaryAfterBuiltins(appName: string, processName: string, commands: seq<Command>)
    ensures HelpExecute(appName, processName, [VersionCommand(), HelpCommand()] + commands).1
         == SummaryHeader(processName, appName) + PrintCommands(commands) + [Chunk(Stdout, "\n")]
  {
    var builtins := [VersionCommand(), HelpCommand()];
    PrintCommandsOfConcat(builtins, commands);
    assert |PrintCommands(builtins)| == |Listed(builtins)| == 0;
    assert PrintCommands(builtins) + PrintCommands(commands) == PrintCommands(commands);
    EmptyLine();
  }

  lemma EmptyLine()
    ensures Writeln(Stdout, "") == Chunk(Stdout, "\n")
  {
    assert "" + "\n" == "\n";
  }

}

=== FILE: seq_facts.dfy ===
/** Small facts about sequences at an arbitrary element type. Stating them
    once at a type parameter keeps the equalities they need free of the
    element type's own structure. */
module SeqFacts {
  /** Equal sequences have equal elements. */
  lemma SameAt<T>(a: seq<T>, b: seq<T>, i: int)
    requires a == b && 0 <= i < |a|
    ensures a[i] == b[i]
  {
  }

  /** Indexing a sequence that starts with a given element. */
  lemma ConsAt<T>(a: seq<T>, x: T, b: seq<T>, i: int)
    requires a == [x] + b && 0 <= i < |a|
    ensures a[i] == if i == 0 then x else b[i - 1]
  {
  }

  /** Indexing the middle part of a three-part concatenation. */
  lemma MiddleAt<T>(s: seq<T>, a: seq<T>, b: seq<T>, c: seq<T>, i: int)
    requires s == a + b + c && 0 <= i < |b|
    ensures s[|a| + i] == b[i]
  {
  }

  lemma AppendRegroup<T>(a: seq<T>, x: T, b: seq<T>)
    ensures a + [x] + b == a + ([x] + b)
  {
  }

  lemma ConsSplit<T>(s: seq<T>)
    requires |s| > 0
    ensures [s[0]] + s[1..] == s
  {
  }

  lemma DropEmptyMiddle<T>(a: seq<T>, b: seq<T>, c: seq<T>)
    requires |b| == 0
    ensures a + b + c == a + c
  {
  }
}

=== FILE: wrappers.dfy ===
/** The optional-value type used throughout the model in place of Swift's `T?`. */
module Wrappers {

  datatype Option<+T> = None | Some(value: T)
}
